=== FILE: README.md ===
# HandyGO authentication, sessions and messaging — a Dafny model

This project models the stateful core of the HandyGO backend. It states and proves properties of that model.

The parts modelled:
- The Aalto authentication controller. It keeps a verification-code registry that maps a normalised e-mail address to a code and an expiry. Registration requires an `@aalto.fi` address and accepts an optional one-time code. Login gives an unknown user and a wrong password the same 401 reply. A missing identifier gets 400, and a known user without a password gets 500. Logout deletes the session.
- The older authentication controller. It has no domain policy, tells an unknown address apart from a wrong password, and answers a malformed address with status 201.
- The in-memory session registry. Lookups slide the expiry forward, a periodic sweep drops expired entries, and deletion is idempotent.
- The message service and its controller:
  - a message log that is only appended to;
  - one conversation row per task and canonically ordered user pair, kept by an upsert;
  - the thread and inbox queries;
  - read-state updates, which only move `read_at` from null to a time;
  - guards for authentication and required fields.
- The user service:
  - case-insensitive lookups by e-mail and username;
  - the `readUser` projection, which never includes the password hash;
  - the dynamic `UPDATE` statement `updateUser` builds from a sparse body.
- The demonstration task server's in-memory task list.
- The client's `apiUrl` helper and endpoint path builders.

## How the model is built

Every handler is a pure function. It takes the state and the request and returns the reply together with the new state.

- **Tables.** Database tables are sequences of rows. SQL `WHERE` is `Seqs.Filter`. `ORDER BY` is the stable sort `Seqs.SortBy`.
- **Time.** The clock (`Date.now()`, `CURRENT_TIMESTAMP`) is an explicit `now` argument.
- **Collaborators as parameters.** Code the core calls but does not contain is a parameter:
  - the e-mail format validator, as `isEmail`;
  - scrypt, as `hash` and `verify`;
  - `Math.random()`, as a `real` in [0, 1);
  - `crypto.randomUUID()`, as `sid`, `newId` or `id`;
  - whether outbound mail succeeded, as `delivered`;
  - whether a mail service is configured, as `emailConfigured`;
  - the verified signed cookie, as `Option<string>`;
  - the session middleware's user, as `Option<string>`.
- **JavaScript truthiness.** A missing or empty string is falsy; `Text.Truthy` expresses this. A missing field is `None`.
- **Exceptions.** An exception that escapes a handler is a 500 reply. An example is `password.trim()` on a missing password.

The modules:

| module | models |
|---|---|
| `Text` | `trim` (ECMAScript white space), `toLowerCase`, `startsWith`/`endsWith`, string `<` |
| `Decimal` | `Number.prototype.toString` for naturals, and its inverse |
| `Seqs` | filtering and stable sorting |
| `Users` | server/user-service.js |
| `Sessions` | server/session-service.js, in-memory path |
| `AuthControl` | www_services/server/auth-control.js |
| `LegacyAuthControl` | server/auth-control.js |
| `MessageService` | server/message-service.js |
| `MessageControl` | server/message-control.js |
| `TaskServer` | www_services/server/node-server.js |
| `ApiConfig` | client/src/lib/api-config.js |

## Behaviour of the code that may be unexpected

Each of these follows from the code as written, and the model keeps it.

- **Duplicate addresses.** Registration does not check for an existing user with the same address. The code goes straight from the domain check to the code check and then inserts.
- **Registration without a code** is accepted. No code check happens at all.
- **Login by username** normalises the username and matches it against the *e-mail* column.
- **`updateUser`** also accepts `email` and `password_hash`, besides the profile fields.
- **The older controller** answers a failed validation with status 201, not with an error status.
- **The code is echoed when mail delivery fails**, even with a mail service configured (www_services/server/auth-control.js:72-76). The reply then carries the code with `devMode` false.
- **Registration replies of the older controller include the password hash.** `createUser` inserts with `RETURNING *` (server/user-service.js:13-17), and the older controller sends that row back, `password_hash` included.

The Aalto controller's user service is not part of this model, and `Users` stands in for it. So in the model the Aalto controller's registration reply also carries the hash; that follows from the stand-in, not from code shown here.

## Model

| member | source | states |
|---|---|---|
| `AuthControl.AaltoEmailExample` | www_services/server/auth-control.js:16-18 | `" Bob@AALTO.FI"` passes the domain check, because trimming and lower-casing come first |
| `AuthControl.NonAaltoEmailExample` | www_services/server/auth-control.js:16-18 | `"bob@gmail.com"` fails the domain check |
| `AuthControl.AaltoEmailOfNormalized` | www_services/server/auth-control.js:41-42 | checking the already normalised address gives the same verdict as checking the raw one |
| `AuthControl.IsAaltoEmail` | www_services/server/auth-control.js:16-18 | an address passes exactly when its trimmed, lower-cased form is some local part followed by `@aalto.fi` |
| `AuthControl.NotAaltoByLastChar` | www_services/server/auth-control.js:16-18 | an address without surrounding white space whose last character does not lower-case to `i` fails the domain check |
| `AuthControl.AaltoKey` | www_services/server/auth-control.js:122-123 | an address that passes the domain check is non-empty, and its stored key is already lower case |
| `Text.Trim` | www_services/server/auth-control.js:17 | the result is no longer than the input and neither starts nor ends with white space |
| `Text.TrimSpec` | www_services/server/auth-control.js:17 | the result is a contiguous slice of the input, and only white space is cut before and after it |
| `Text.ToLower` | www_services/server/auth-control.js:17 | same length; no upper-case ASCII letter remains; every other character is kept in place |
| `Text.NormalizeShape` | www_services/server/auth-control.js:41 | the stored key is no longer than the input, has no white space at either end and no upper-case letter |
| `Text.NormalizeIdempotent` | www_services/server/auth-control.js:41 | normalising a stored key again gives the same key |
| `Decimal.NatToString` | www_services/server/auth-control.js:22 | `toString` of a natural is a non-empty string of decimal digits without a leading zero, for integers below 10^21 |
| `AuthControl.GenerateVerificationCode` | www_services/server/auth-control.js:21-23 | for every random value in [0, 1), the code is six decimal digits whose value lies in [100000, 999999] |
| `Decimal.ValueOfNatToString` | www_services/server/auth-control.js:22 | reading back the decimal string of n gives n, so the code's digits are the generated integer |
| `AuthControl.SendVerificationCode` | www_services/server/auth-control.js:26-78 | 400 exactly when the address is missing, malformed or not at the domain, each with its own exact message ("Email is required", "Invalid email address", "Please use an Aalto email address (@aalto.fi)"), and then the store is unchanged; otherwise the normalised address maps to a fresh code that expires 300000 ms later, and every other entry is kept |
| `AuthControl.SendVerificationCodeStores` | www_services/server/auth-control.js:41-76 | on success the stored keys are the old keys plus the normalised address; the entry holds six characters and expires in five minutes; other entries are unchanged; the code is echoed exactly when delivery failed or no mail service is configured |
| `AuthControl.CodeSentBody` | www_services/server/auth-control.js:52-76 | the reply includes the code exactly when delivery failed or no mail service is configured, and `devMode` is present exactly when the code is; `devMode` is true exactly when no mail service is configured; the message is the success text after delivery, the failure text when a configured service failed, and the dev-mode text otherwise |
| `AuthControl.VerifyCode` | www_services/server/auth-control.js:81-109 | each outcome by its condition: a missing field, a missing entry and a mismatching live code give their 400 messages and leave the store unchanged; an expired entry gives the expiry message and is purged; a matching live code gives 200 and is consumed; 200 happens exactly in that last case |
| `AuthControl.IssueThenVerifyOnce` | www_services/server/auth-control.js:92-108 | within five minutes the issued code verifies once; the identical second request finds no code |
| `AuthControl.VerifyAtExpiryBoundary` | www_services/server/auth-control.js:96-99 | expiry is strict: a matching code presented exactly at its expiry time is accepted |
| `AuthControl.ExpiredThenNoEntry` | www_services/server/auth-control.js:89-99 | after expiry the first attempt reports expiry and purges the entry; the next reports no code |
| `AuthControl.RegisterUser` | www_services/server/auth-control.js:111-140 | a malformed address gets the validation payload, a non-domain address and a given code that is missing, wrong or expired get their exact 400 replies, all with the state unchanged; a missing password is a 500; 200 exactly otherwise, appending one user with id `newId`, the normalised address and the hash of the trimmed password, and consuming a given code |
| `AuthControl.RegisterWithExpiredCodeKeepsEntry` | www_services/server/auth-control.js:128-135 | an expired code makes registration fail with 400 and, unlike `verifyCode`, leaves the entry in place |
| `AuthControl.RegistrationCodeIsOneShot` | www_services/server/auth-control.js:128-135 | a code used by a successful registration cannot be used by a second one |
| `AuthControl.CodeAccepted` | www_services/server/auth-control.js:128-132 | an absent or empty code passes; a given code passes exactly when `verifyCode` would accept it for that stored key |
| `AuthControl.LoginUser` | www_services/server/auth-control.js:143-180 | 400 exactly when neither identifier is given; 401 with one generic message exactly when no user matches or the password fails; a missing password for a known user is a 500; valid credentials give 200 with the first matching user's id, username and e-mail, and the sessions become exactly those `createSession` produces for that user |
| `AuthControl.LoginFailuresIndistinguishable` | www_services/server/auth-control.js:159-179 | an unknown address and a wrong password get identical replies |
| `AuthControl.LoginKey` | www_services/server/auth-control.js:149-157 | the looked-up key is the normalised e-mail when one is given, else the normalised username, and is already in normal form |
| `AuthControl.LoginFindsOnlyRow` | www_services/server/auth-control.js:159-176 | when the key finds exactly one row and the password verifies, login gives 200 for that row and its session resolves to it |
| `AuthControl.RegisterThenLogin` | www_services/server/auth-control.js:111-180 | a fresh address registered with a password logs in with that password, given that `verify` accepts what `hash` produced; the new session resolves to the new row |
| `AuthControl.LogoutUser` | www_services/server/auth-control.js:182-186 | always "Session deleted."; the sessions become exactly what `deleteSession` leaves: the cookie's session is gone and every other session is kept unchanged |
| `AuthControl.LogoutThenResolve` | www_services/server/auth-control.js:182-186 | after logout the cookie resolves to no user, and every other cookie resolves as before |
| `LegacyAuthControl.RegisterUser` | server/auth-control.js:11-24 | a malformed address gets the validation payload with status 201 and stores nothing; a well-formed address without a password gets 500 and stores nothing; success appends one user with the normalised address and the hash of the trimmed password |
| `LegacyAuthControl.RegisterThenLogin` | server/auth-control.js:11-46 | a fresh address registered with a password logs in with that password, given that `verify` accepts what `hash` produced; the new session resolves to the new row |
| `LegacyAuthControl.LoginUser` | server/auth-control.js:26-46 | an unknown address gets a 200 message naming the normalised address; a wrong password gets 200 "Incorrect password."; neither changes anything; a missing address or password is a 500; only a known address with an accepted password creates a session, exactly as `createSession` does for that user |
| `LegacyAuthControl.LoginRevealsUnknownAddress` | server/auth-control.js:32-45 | unlike the Aalto controller, an unknown address and a wrong password get different replies |
| `LegacyAuthControl.LogoutUser` | server/auth-control.js:48-52 | always "Session deleted.", whether or not a session existed; the sessions become exactly what `deleteSession` leaves, so every other session is kept; without a cookie nothing changes |
| `LegacyAuthControl.LogoutThenResolve` | server/auth-control.js:48-52 | after logout the cookie resolves to no user, and every other cookie resolves as before |
| `Sessions.CreateSession` | server/session-service.js:26-43 | the cookie is `session-id`, `httpOnly`, `lax`, path `/`, and lives one week; the store gains exactly the new id, mapped to the user with expiry now plus 604800000 ms; other entries are unchanged |
| `Sessions.GetUserFromSession` | server/session-service.js:62-79 | no valid cookie or an unknown id gives null and no change; an expired entry is deleted and gives null; a live one returns its user and slides the expiry to one week from now; other entries are unchanged |
| `Sessions.Sweep` | server/session-service.js:17-24 | keeps exactly the entries whose expiry is not before now, unchanged |
| `Sessions.DeleteSession` | server/session-service.js:105-113 | removes exactly the cookie's id; without a cookie the store is unchanged |
| `Sessions.CreateThenResolve` | server/session-service.js:39-78 | a lookup within a week of login returns the user stored at login |
| `Sessions.ExpiresAfterInactivity` | server/session-service.js:70-75 | without lookups, a session is gone once more than a week has passed |
| `Sessions.SlidingExpiryKeepsAlive` | server/session-service.js:76-78 | any sequence of lookups spaced at most a week apart returns the stored user every time |
| `Sessions.SweepThenResolve` | server/session-service.js:17-24 | a sweep at an earlier or equal time does not change what a lookup returns |
| `Sessions.SweepIdempotent` | server/session-service.js:17-24 | sweeping twice at the same time is sweeping once |
| `Sessions.DeleteSessionIdempotent` | server/session-service.js:105-113 | deleting twice is deleting once, and the deleted session no longer resolves |
| `Sessions.DeleteThenResolve` | server/session-service.js:105-113 | after deletion the cookie resolves to no user, and every other cookie resolves as before |
| `MessageService.CanonicalPair` | server/message-service.js:24-25 | the pair is the arguments in one of the two orders, with the first not greater than the second |
| `MessageService.CanonicalPairSymmetric` | server/message-service.js:23-26 | (a, b) and (b, a) give the same pair |
| `Text.Less` | server/message-service.js:24-25 | string `<` never relates a string to itself |
| `Text.LessIrreflexive` | server/message-service.js:24-25 | no string is less than itself |
| `Text.LessAsymmetric` | server/message-service.js:24-25 | two strings are never each less than the other |
| `Text.LessTotal` | server/message-service.js:24-25 | of two different strings, one is less than the other |
| `MessageService.UpdateConversation` | server/message-service.js:22-36 | the row with the pair's key is updated in place when present and appended otherwise; it points at the message with time now; every other row is unchanged; key uniqueness is preserved |
| `MessageService.UpdateConversationSymmetric` | server/message-service.js:25-35 | the upsert does not depend on which participant sent |
| `MessageService.CreateMessage` | server/message-service.js:6-36 | appends one unread message stamped now; the pair's conversation exists afterwards and, under key uniqueness, points at the new message; the conversations are exactly as the `updateConversation` upsert leaves them, so every other row is unchanged and the pair's `last_message_at` is now |
| `MessageService.GetConversationMessages` | server/message-service.js:39-60 | exactly the task's messages between the two users in either direction, each kept as often as stored, in ascending creation time |
| `MessageService.GetConversationMessagesSymmetric` | server/message-service.js:53-55 | the thread does not depend on the order of the two users |
| `MessageService.ThreadInSendingOrder` | server/message-service.js:56 | when creation times never decrease along the log, the thread is the log's own order |
| `MessageService.GetUserConversations` | server/message-service.js:63-94 | exactly the conversations involving the user, each as often as stored, with the other participant, most recently active first |
| `MessageService.InboxRowsExact` | server/message-service.js:89-90 | the inbox rows are the user's conversations and as many of them as the filter finds |
| `MessageService.InboxRows` | server/message-service.js:89-90 | the rows are a permutation of the user's conversations, most recently active first |
| `Seqs.FilterCount` | server/user-service.js:25-26 | `WHERE` keeps every copy of a matching row and no copy of any other |
| `MessageService.MarkMessageAsRead` | server/message-service.js:97-108 | stamps a message only if it has that id, the caller is its receiver and it is unread; the result is null exactly when no message qualifies, and otherwise is the stamped row of the first one, as it now stands in the table |
| `MessageService.MarkConversationAsRead` | server/message-service.js:111-123 | stamps exactly the unread messages of the task from the other user to the user; the returned rows are exactly those messages, in table order, as stamped |
| `MessageService.ReturningSpec` | server/message-service.js:97-123 | `RETURNING` is empty exactly when no row is selected, and every returned row is a selected row as stamped |
| `MessageService.ReturningIsStampedFilter` | server/message-service.js:111-123 | `RETURNING` yields exactly the selected rows, in table order, each as stamped |
| `MessageService.ReturningFirst` | server/message-service.js:97-108 | the first returned row is the first selected row of the table, as stamped |
| `MessageService.MarkConversationAsReadIdempotent` | server/message-service.js:111-123 | a second marking, at any time, returns nothing and changes nothing |
| `MessageService.ReadAtIsSetOnce` | server/message-service.js:97-123 | neither marking changes a `read_at` that is already set |
| `MessageControl.SendMessage` | server/message-control.js:4-25 | an unparseable body gives 500 before authentication; no user gives 401; a `null` body gives 500 after it; a missing field gives the exact 400 reply; all three create nothing; 201 exactly otherwise, with the session user as sender and the database as `createMessage` leaves it |
| `MessageControl.GetConversationMessages` | server/message-control.js:28-52 | 401 without a user; 400 without task or other user; otherwise 200 with exactly the service's thread (every message of it, in its order), and the database as `markConversationAsRead` leaves it |
| `MessageControl.ThreadShowsReadStateBeforeMarking` | server/message-control.js:42-47 | an unread message appears unread in the reply, although the same call marks it read |
| `MessageControl.GetUserConversations` | server/message-control.js:55-68 | 401 without a user; otherwise 200 with exactly the service's inbox for that user |
| `MessageControl.GetOrCreateConversation` | server/message-control.js:71-92 | the guards as above, 200 exactly when they pass; it only reads and returns exactly the service's thread with the task and other user, which is empty when the pair has no messages |
| `MessageControl.OpenConversationMatchesThread` | server/message-control.js:42-87 | opening a conversation returns the same list as fetching its thread |
| `MessageControl.SentMessageInBothInboxes` | server/message-control.js:19-62 | after a message is sent, both participants' inboxes show the conversation, naming the other participant and pointing at the new message |
| `MessageControl.InboxShowsRow` | server/message-service.js:63-94 | a conversation between the user and another appears in the user's inbox naming the other |
| `MessageControl.BothDirectionsShareOneConversation` | server/message-service.js:25-35 | messages both ways on one task leave a single conversation row for the pair, pointing at the later message |
| `Users.CreateUser` | server/user-service.js:10-20 | appends exactly one row with the given id, username, address and hash and an empty profile |
| `Users.GetUserFromEmail` | server/user-service.js:23-30 | exactly the stored users whose address equals the argument ignoring case, each as often as stored |
| `Users.GetUserFromUsername` | server/user-service.js:33-40 | exactly the stored users whose username equals the argument ignoring case, each as often as stored |
| `Users.GetUserFromEmailIgnoresCase` | server/user-service.js:26 | two spellings that differ only in case find the same rows |
| `Users.GetUserFromUsernameIgnoresCase` | server/user-service.js:36 | two spellings that differ only in case find the same rows |
| `Users.ReadUser` | server/user-service.js:43-55 | null exactly when no row has the id; otherwise the projection of a row with that id, which has no password hash |
| `Users.ReadUserAppend` | server/user-service.js:43-55 | appending a row changes only what its own id reads, and only if no earlier row had that id |
| `Users.ReadAfterCreate` | server/user-service.js:10-55 | a user created under a fresh id reads back as its own profile with empty profile columns; every other id reads as before |
| `Users.GetUserFromEmailAppend` | server/user-service.js:10-30 | after inserting the only row matching an address, the lookup finds exactly that row |
| `Users.GivenColumnsComplete` | server/user-service.js:59-96 | the set columns are in the fixed column order and include every field that is not undefined, even null or empty ones |
| `Users.BuildUpdate` | server/user-service.js:59-96 | one `col = $k` fragment per given field in column order, numbered 1 to n, fragment k bound to `values[k-1]` |
| `Users.SetClauses` | server/user-service.js:62-96 | the loop builds exactly the fragments and values of the given fields |
| `Users.UpdateUser` | server/user-service.js:58-113 | no given field reads the current row; otherwise one `UPDATE` of the given columns, with n + 1 parameters and the id bound last as `$(n+1)` |
| `TaskServer.SeedIds` | www_services/server/node-server.js:12-55 | the seed holds six tasks with the distinct ids "1" to "6" |
| `TaskServer.ListTasks` | www_services/server/node-server.js:58-60 | the reply is the list in its current order |
| `TaskServer.GetTask` | www_services/server/node-server.js:62-68 | 404 exactly when no task has the id; otherwise the first task with it |
| `TaskServer.CreateTask` | www_services/server/node-server.js:70-87 | a falsy name or description gives 400 and no change; otherwise a task with id length+1, not completed, is put first and the old tasks follow in order |
| `TaskServer.UpdateTask` | www_services/server/node-server.js:89-104 | 404, with no change, exactly when no task has the id; otherwise only the first match changes: name and description only by truthy values, time stamped, id and completion kept |
| `TaskServer.DeleteTask` | www_services/server/node-server.js:106-114 | 404, with no change, exactly when no task has the id; otherwise exactly the first match is removed and the rest keep their order |
| `TaskServer.IdCollisionAfterDelete` | www_services/server/node-server.js:70-114 | deleting task "1" from the seed and then creating a task hands out "6" twice |
| `TaskServer.CreateThenGet` | www_services/server/node-server.js:58-87 | a created task heads the listed list, and looking up its id returns it |
| `TaskServer.CreateTwiceDistinctIds` | www_services/server/node-server.js:70-87 | two creations in a row hand out different ids |
| `Decimal.NatToStringInjective` | www_services/server/node-server.js:78 | different list lengths give different ids |
| `TaskServer.UpdateThenGet` | www_services/server/node-server.js:62-104 | an update keeps every id in its place, and a lookup then returns the updated task |
| `TaskServer.FindIndexSameIds` | www_services/server/node-server.js:90 | lists with the same ids in the same places find an id at the same index |
| `TaskServer.DeleteThenGet` | www_services/server/node-server.js:62-114 | with distinct ids, a deleted task can no longer be looked up, and the ids stay distinct |
| `ApiConfig.BaseUrl` | client/src/lib/api-config.js:5 | the environment's URL when it is non-empty, else `http://localhost:8000` |
| `ApiConfig.TaskPath` | client/src/lib/api-config.js:14 | `/tasks/` followed by exactly the id |
| `ApiConfig.UserPath` | client/src/lib/api-config.js:31 | `/users/` followed by exactly the id |
| `ApiConfig.ConversationPath` | client/src/lib/api-config.js:27 | `/messages/task/`, then the task id, ending in `?otherUserId=` and the other user's id |
| `ApiConfig.MessagesPath` | client/src/lib/api-config.js:28 | `/messages/task/`, then the task id, ending in `/messages?otherUserId=` and the other user's id |
| `ApiConfig.MessagesPathInsertsSegment` | client/src/lib/api-config.js:27-28 | the messages path is the conversation path with `/messages` put before the query string |
| `ApiConfig.ApiUrl` | client/src/lib/api-config.js:36-44 | a path starting with "http" passes through; any other result starts with the base URL; every result ends with the path and is at most one character longer than base and path together |
| `ApiConfig.NonUrlHttpPrefixPassesThrough` | client/src/lib/api-config.js:38-40 | `"httpx"`, not a URL, is returned unchanged |
| `ApiConfig.LeadingSlashKept` | client/src/lib/api-config.js:41-43 | a leading slash is kept, never removed: the result is base URL plus path |
| `ApiConfig.SlashInserted` | client/src/lib/api-config.js:41-43 | a relative path without a slash gets exactly one |
| `ApiConfig.ApiUrlIdempotent` | client/src/lib/api-config.js:36-44 | with a base URL starting with "http", applying `apiUrl` twice is applying it once |
| `ApiConfig.DefaultBaseIsHttp` | client/src/lib/api-config.js:5 | the default base URL starts with "http", so idempotence holds for it |
| `ApiConfig.EndpointsJoinBase` | client/src/lib/api-config.js:10-44 | the task, conversation and messages paths are appended to the base URL unchanged |

## Left out

- The Deno KV fallback in server/session-service.js (lines 45-54 and 81-98). Its TTL semantics are not visible in the code, so the key-value store is treated as unavailable. The unresolved merge markers in that file (lines 10-15 and 59) are also left out; the model follows the code after the `=======` marker.
- www_services/server/session-service.js and the user service that the Aalto controller imports. That user service is not part of this model. The Aalto controller uses `Sessions` and `Users` in their place.
- Outbound e-mail (server/email-service.js). Only its success or failure matters, and that is the `delivered` flag. Log output is left out.
- The zod validator. It is the predicate `isEmail`, and its formatted error object is the opaque `ValidationIssues`.
- scrypt. `hash` and `verify` are uninterpreted parameters.
- `crypto.randomUUID()` and the HMAC of signed cookies. Fresh ids are parameters, and a cookie is what signature checking yields.
- `Math.random()` as a double. The model uses an exact real in [0, 1), so floating-point rounding in `100000 + r * 900000` is not modelled.
- A request body that is not JSON, in the authentication controllers and the task server. Only `sendMessage` models it, because there the parse failure comes before the authentication check.
- Database failures, which the message controllers catch and answer with 500. Examples are a malformed `::uuid` cast, a broken connection and a violated constraint. In the model the database never fails. The table constraints are left out too: unique addresses and usernames, and foreign keys.
- The joined columns of the queries. These are the sender and receiver names and avatars, the task's name, price and time, the other user's profile, the last message's content, and the conversation id. They do not affect which rows are returned or their order.
- The unused `[userId1, userId2].sort()` in `getConversationMessages` (server/message-service.js:40). It has no effect on the query.
- Ties in `ORDER BY`, which SQL leaves unspecified. The model breaks them by table order.
- Unicode in `toLowerCase`. The model lower-cases ASCII letters only.
- String `<`. It is modelled as comparison of `char` values, which agrees with JavaScript's UTF-16 order for characters in the Basic Multilingual Plane.
- JSON values that are not strings, such as numbers or booleans in request fields. Fields are strings or missing. A message body that is a JSON number, string or boolean has no such fields, so it is `Parsed` with every field missing; only `null` gets its own case.
- The exception text in 500 replies. The message controllers add `message: error.message` to each 500 body (server/message-control.js:23, 50, 66 and 90). The model keeps only the fixed `error` string, because the text comes from the JSON parser or the database.
- `AuthControl.RegisterUser`: the username is a required string. A missing username, which the code would insert as NULL, is not modelled.
- `LegacyAuthControl.RegisterUser`: the username is a required string, as in the Aalto controller.
- Identifier case in the database. The `::uuid` casts in server/message-service.js and server/user-service.js make PostgreSQL compare ids without regard to letter case, and reject text that is not a UUID. The model compares ids as strings and assumes every id is a canonical lower-case UUID. Ids that differ only in case are different here but the same in the database.
- The row order of `UPDATE ... RETURNING`, which SQL leaves unspecified. The model returns rows in table order, so `result[0]` is the first matching row of the table.
- `Users.UpdateUser`: the empty-update branch is described by the id it reads, not by executing the `SELECT`. Executing the query is left to the database.
- `deleteCookie` in `deleteSession`. The model returns the updated store only, not the expired cookie header.
- The health route and server start-up in node-server.js, which only log and report the time.
- Other code outside this model:
  - server/task-service.js, www_services/server/task-service.js and server/task-control.js: pass-through SQL;
  - server/user-control.js: a thin controller;
  - the app routing files.
- Concurrency between requests. Each handler is one atomic transition.

=== FILE: api_config.dfy ===
/**
 * The client's API configuration: the base URL, the endpoint paths and
 * `apiUrl`, which turns a path into a full URL.
 */
module ApiConfig {
  import opened Wrappers
  import Text

  const DefaultBaseUrl: string := "http://localhost:8000"

  /** `import.meta.env.VITE_API_URL || 'http://localhost:8000'`. */
  function BaseUrl(viteApiUrl: Option<string>): (r: string)
    ensures Text.Truthy(viteApiUrl) ==> r == viteApiUrl.value
    ensures !Text.Truthy(viteApiUrl) ==> r == DefaultBaseUrl
  {
    if Text.Truthy(viteApiUrl) then viteApiUrl.value else DefaultBaseUrl
  }

  const TasksPath: string := "/tasks"
  const SessionPath: string := "/auth/session"
  const LoginPath: string := "/auth/login"
  const LogoutPath: string := "/auth/logout"
  const RegisterPath: string := "/auth/registration"
  const SendCodePath: string := "/auth/send-code"
  const VerifyCodePath: string := "/auth/verify-code"
  const UpdateProfilePath: string := "/auth/update-profile"
  const SendMessagePath: string := "/messages"
  const ConversationsPath: string := "/messages/conversations"
  const UsersPath: string := "/users"

  /** `endpoints.task(id)`. */
  function TaskPath(id: string): (r: string)
    ensures Text.StartsWith(r, "/tasks/") && r[|"/tasks/"|..] == id
  {
    "/tasks/" + id
  }

  /** `endpoints.user(id)`. */
  function UserPath(id: string): (r: string)
    ensures Text.StartsWith(r, "/users/") && r[|"/users/"|..] == id
  {
    "/users/" + id
  }

  /** The part of the conversation paths before the query string. */
  function ThreadPrefix(taskId: string): string {
    "/messages/task/" + taskId
  }

  function OtherUserQuery(otherUserId: string): string {
    "?otherUserId=" + otherUserId
  }

  /**
   * `endpoints.messages.conversation(taskId, otherUserId)`: the task's
   * thread path, with the other participant in the query string.
   */
  function ConversationPath(taskId: string, otherUserId: string): (r: string)
    ensures r == ThreadPrefix(taskId) + OtherUserQuery(otherUserId)
    ensures Text.StartsWith(r, "/messages/task/") && r[|"/messages/task/"|..|"/messages/task/"| + |taskId|] == taskId
    ensures Text.EndsWith(r, "?otherUserId=" + otherUserId)
  {
    var head := "/messages/task/" + taskId;
    var query := "?otherUserId=" + otherUserId;
    assert (head + query)[..|head|] == head;
    assert head[|"/messages/task/"|..] == taskId;
    assert (head + query)[|head|..] == query;
    head + query
  }

  /** `endpoints.messages.messages(taskId, otherUserId)`. */
  function MessagesPath(taskId: string, otherUserId: string): (r: string)
    ensures r == ThreadPrefix(taskId) + "/messages" + OtherUserQuery(otherUserId)
    ensures Text.StartsWith(r, "/messages/task/") && r[|"/messages/task/"|..|"/messages/task/"| + |taskId|] == taskId
    ensures Text.EndsWith(r, "/messages?otherUserId=" + otherUserId)
  {
    var head := "/messages/task/" + taskId;
    var query := "/messages?otherUserId=" + otherUserId;
    assert (head + query)[..|head|] == head;
    assert head[|"/messages/task/"|..] == taskId;
    assert (head + query)[|head|..] == query;
    head + query
  }

  /** The messages path is the conversation path with "/messages" put before its query string. */
  lemma MessagesPathInsertsSegment(taskId: string, otherUserId: string)
    ensures var c := ConversationPath(taskId, otherUserId); var n := |ThreadPrefix(taskId)|;
      && n <= |c|
      && MessagesPath(taskId, otherUserId) == c[..n] + "/messages" + c[n..]
  {
    var c := ConversationPath(taskId, otherUserId);
    var n := |ThreadPrefix(taskId)|;
    assert c[..n] == ThreadPrefix(taskId);
    assert c[n..] == OtherUserQuery(otherUserId);
  }

  /**
   * `apiUrl`: a path already starting with "http" is returned as is;
   * any other is appended to the base URL, with a "/" put in between when
   * the path does not start with one.
   */
  function ApiUrl(baseUrl: string, path: string): (r: string)
    ensures Text.StartsWith(path, "http") ==> r == path
    ensures !Text.StartsWith(path, "http") ==> Text.StartsWith(r, baseUrl)
    ensures Text.EndsWith(r, path)
    ensures |r| <= |baseUrl| + |path| + 1
  {
    if Text.StartsWith(path, "http") then path
    else
      var clean := if Text.StartsWith(path, "/") then path else "/" + path;
      var r := baseUrl + clean;
      assert r[..|baseUrl|] == baseUrl;
      assert r[|r| - |path|..] == path;
      r
  }

  /** Any string beginning with "http" counts as absolute, URL or not. */
  lemma NonUrlHttpPrefixPassesThrough()
    ensures ApiUrl(DefaultBaseUrl, "httpx") == "httpx"
  {
    assert "httpx"[..4] == "http";
  }

  /** A leading slash is kept, never removed: the path follows the base URL verbatim. */
  lemma LeadingSlashKept(baseUrl: string, path: string)
    requires Text.StartsWith(path, "/")
    ensures ApiUrl(baseUrl, path) == baseUrl + path
  {
    assert path[0] == path[..1][0] == '/';
  }

  /** A relative path without a slash gets exactly one. */
  lemma SlashInserted(baseUrl: string, path: string)
    requires !Text.StartsWith(path, "/") && !Text.StartsWith(path, "http")
    ensures ApiUrl(baseUrl, path) == baseUrl + "/" + path
  {
  }

  /** With an "http" base, as the default is, `apiUrl` is idempotent. */
  lemma ApiUrlIdempotent(baseUrl: string, path: string)
    requires Text.StartsWith(baseUrl, "http")
    ensures ApiUrl(baseUrl, ApiUrl(baseUrl, path)) == ApiUrl(baseUrl, path)
  {
    var r := ApiUrl(baseUrl, path);
    if !Text.StartsWith(path, "http") {
      assert r[..4] == baseUrl[..4];
    }
  }

  /** The default base URL is an "http" URL, so the idempotence applies to it. */
  lemma DefaultBaseIsHttp()
    ensures Text.StartsWith(DefaultBaseUrl, "http")
  {
    assert DefaultBaseUrl[..4] == "http";
  }

  /** Every endpoint builder yields a path the base URL is simply prepended to. */
  lemma EndpointsJoinBase(baseUrl: string, taskId: string, otherUserId: string)
    ensures ApiUrl(baseUrl, TaskPath(taskId)) == baseUrl + TaskPath(taskId)
    ensures ApiUrl(baseUrl, ConversationPath(taskId, otherUserId)) == baseUrl + ConversationPath(taskId, otherUserId)
    ensures ApiUrl(baseUrl, MessagesPath(taskId, otherUserId)) == baseUrl + MessagesPath(taskId, otherUserId)
  {
    assert TaskPath(taskId)[..1] == "/";
    assert ConversationPath(taskId, otherUserId)[..1] == "/";
    assert MessagesPath(taskId, otherUserId)[..1] == "/";
    LeadingSlashKept(baseUrl, TaskPath(taskId));
    LeadingSlashKept(baseUrl, ConversationPath(taskId, otherUserId));
    LeadingSlashKept(baseUrl, MessagesPath(taskId, otherUserId));
  }
}

=== FILE: auth_control.dfy ===
/**
 * The Aalto authentication controller: the verification-code registry
 * (e-mail -> code and expiry), registration gated on the `@aalto.fi`
 * domain and an optional one-time code, login with a generic failure
 * message, and logout.
 *
 * Collaborators are parameters: `isEmail` is the e-mail format validator,
 * `hash`/`verify` the password hashing, `random` the value `Math.random()`
 * returned, `sid` and `newId` the random UUIDs, `delivered` whether the
 * outbound e-mail succeeded and `emailConfigured` whether a delivery
 * service is configured in the environment.
 */
module AuthControl {
  import opened Wrappers
  import Text
  import Decimal
  import Users
  import Sessions

  const CodeLifetimeMilliseconds: int := 300000
  const AaltoSuffix: string := "@aalto.fi"
  const InvalidCredentials: string := "Invalid email/username or password"

  datatype CodeEntry = CodeEntry(code: string, expiresAt: int)

  /** Normalised e-mail address -> the one live code for it. */
  type CodeStore = map<string, CodeEntry>

  datatype State = State(codes: CodeStore, users: seq<Users.User>, sessions: Sessions.Store)

  /** The user fields a successful login returns. */
  datatype LoginView = LoginView(id: string, username: string, email: string)

  /** The JSON bodies the handlers answer with. */
  datatype Body =
    | Error(error: string)
    | Message(message: string)
    | CodeSent(message: string, code: Option<string>, devMode: Option<bool>)
    | ValidationIssues                       // the validator's formatted error object
    | CreatedRows(rows: seq<Users.User>)
    | LoggedIn(message: string, user: LoginView)
    | ServerError                            // an exception escaped the handler

  datatype Reply = Reply(status: int, body: Body)

  datatype RegisterRequest = RegisterRequest(
    username: string, email: Option<string>, password: Option<string>, verificationCode: Option<string>)

  datatype LoginRequest = LoginRequest(email: Option<string>, username: Option<string>, password: Option<string>)

  /** `isAaltoEmail`: the trimmed, lower-cased address is some local part followed by `@aalto.fi`. */
  predicate IsAaltoEmail(email: string)
    ensures IsAaltoEmail(email) <==> exists local :: Text.Normalize(email) == local + AaltoSuffix
  {
    var n := Text.Normalize(email);
    assert (exists local :: n == local + AaltoSuffix) ==> Text.EndsWith(n, AaltoSuffix) by {
      if exists local :: n == local + AaltoSuffix {
        var local :| n == local + AaltoSuffix;
        assert n[|n| - |AaltoSuffix|..] == AaltoSuffix;
      }
    }
    assert Text.EndsWith(n, AaltoSuffix) ==> n == n[..|n| - |AaltoSuffix|] + AaltoSuffix;
    Text.EndsWith(n, AaltoSuffix)
  }

  /** The domain check reads through surrounding white space and letter case. */
  lemma AaltoEmailExample()
    ensures IsAaltoEmail(" Bob@AALTO.FI")
  {
    var l := "bob@aalto.fi";
    NormalizeExample();
    assert l[|l| - |AaltoSuffix|..] == "@aalto.fi";
  }

  /** Only the domain at the end counts. */
  lemma NonAaltoEmailExample()
    ensures !IsAaltoEmail("bob@gmail.com")
  {
    var g := "bob@gmail.com";
    assert Text.Trim(g) == g by {
      assert !Text.IsSpace(g[0]) && !Text.IsSpace(g[|g| - 1]);
      Text.TrimOfTrimmed(g);
    }
    assert Text.LowerChar(g[|g| - 1]) != 'i' by {
      assert g[|g| - 1] == 'm';
    }
    NotAaltoByLastChar(g);
  }

  /** An address whose normalised form does not end in `i` is not at the domain. */
  lemma NotAaltoByLastChar(e: string)
    requires Text.Trim(e) == e && |e| > 0 && Text.LowerChar(e[|e| - 1]) != 'i'
    ensures !IsAaltoEmail(e)
  {
    var lg := Text.Normalize(e);
    assert lg[|lg| - 1] == Text.LowerChar(e[|e| - 1]);
    assert AaltoSuffix[|AaltoSuffix| - 1] == 'i';
  }

  lemma NormalizeExample()
    ensures Text.Normalize(" Bob@AALTO.FI") == "bob@aalto.fi"
  {
    TrimExample();
    LowerExample();
  }

  lemma TrimExample()
    ensures Text.Trim(" Bob@AALTO.FI") == "Bob@AALTO.FI"
  {
    var s := " Bob@AALTO.FI";
    var t := s[1..];
    assert t == "Bob@AALTO.FI";
    assert Text.IsSpace(s[0]) && !Text.IsSpace(t[0]);
    assert Text.TrimStart(s) == t;
    assert !Text.IsSpace(t[|t| - 1]);
  }

  lemma LowerExample()
    ensures Text.ToLower("Bob@AALTO.FI") == "bob@aalto.fi"
  {
    var t := "Bob@AALTO.FI";
    var l := Text.ToLower(t);
    forall i | 0 <= i < |t|
      ensures l[i] == "bob@aalto.fi"[i]
    {
    }
  }

  /** Checking the normalised address gives the same answer as checking the raw one. */
  lemma AaltoEmailOfNormalized(email: string)
    ensures IsAaltoEmail(Text.Normalize(email)) == IsAaltoEmail(email)
  {
    Text.NormalizeIdempotent(email);
  }

  /** The integer `Math.floor(100000 + random * 900000)`, given the value `Math.random()` returned. */
  function CodeNumber(random: real): (n: nat)
    requires 0.0 <= random < 1.0
    ensures 100000 <= n <= 999999
  {
    (100000.0 + random * 900000.0).Floor
  }

  /** `generateVerificationCode`: always six decimal digits. */
  function GenerateVerificationCode(random: real): (code: string)
    requires 0.0 <= random < 1.0
    ensures |code| == 6 && Decimal.AllDigits(code)
    ensures 100000 <= Decimal.Value(code) <= 999999
  {
    var n := CodeNumber(random);
    Decimal.NatToStringLength(n, 6);
    Decimal.ValueOfNatToString(n);
    Decimal.NatToString(n)
  }

  // ---------------------------------------------------------------------
  // Verification codes

  /** `sendVerificationCode`. */
  function SendVerificationCode(
    codes: CodeStore, email: Option<string>, isEmail: string -> bool,
    random: real, now: int, delivered: bool, emailConfigured: bool): (r: (Reply, CodeStore))
    requires 0.0 <= random < 1.0
    ensures r.0.status == 400 || r.0.status == 200
    ensures r.0.status == 400 <==>
      !Text.Truthy(email) || !isEmail(email.value) || !IsAaltoEmail(email.value)
    ensures r.0.status == 400 ==> r.1 == codes
    ensures !Text.Truthy(email) ==> r == (Reply(400, Error("Email is required")), codes)
    ensures Text.Truthy(email) && !isEmail(email.value) ==> r == (Reply(400, Error("Invalid email address")), codes)
    ensures Text.Truthy(email) && isEmail(email.value) && !IsAaltoEmail(email.value) ==>
      r == (Reply(400, Error("Please use an Aalto email address (@aalto.fi)")), codes)
    ensures r.0.status == 200 ==>
      var key := Text.Normalize(email.value);
      && key in r.1 && r.1 == codes[key := r.1[key]]
      && r.1[key] == CodeEntry(GenerateVerificationCode(random), now + CodeLifetimeMilliseconds)
      && r.0.body == CodeSentBody(r.1[key].code, delivered, emailConfigured)
  {
    if !Text.Truthy(email) then (Reply(400, Error("Email is required")), codes)
    else if !isEmail(email.value) then (Reply(400, Error("Invalid email address")), codes)
    else
      var key := Text.Normalize(email.value);
      AaltoEmailOfNormalized(email.value);
      if !IsAaltoEmail(key) then (Reply(400, Error("Please use an Aalto email address (@aalto.fi)")), codes)
      else
        var code := GenerateVerificationCode(random);
        var codes' := codes[key := CodeEntry(code, now + CodeLifetimeMilliseconds)];
        (Reply(200, CodeSentBody(code, delivered, emailConfigured)), codes')
  }

  /**
   * The reply to an issued code: the code is echoed (with `devMode`) when no
   * delivery service is configured or when delivery failed.
   */
  function CodeSentBody(code: string, delivered: bool, emailConfigured: bool): (b: Body)
    ensures b.CodeSent?
    ensures b.code.Some? <==> !delivered || !emailConfigured
    ensures b.code.Some? ==> b.code.value == code
    ensures b.devMode.Some? ==> b.devMode.value == !emailConfigured
    ensures b.devMode.Some? <==> b.code.Some?
    ensures delivered ==> b.message == "Verification code sent to your email"
    ensures !delivered && emailConfigured ==> b.message == "Failed to send email. Check server logs."
    ensures !delivered && !emailConfigured ==> b.message == "Verification code sent (dev mode - no email service configured)"
  {
    if delivered then
      if emailConfigured then CodeSent("Verification code sent to your email", None, None)
      else CodeSent("Verification code sent to your email", Some(code), Some(true))
    else
      CodeSent(
        if emailConfigured then "Failed to send email. Check server logs."
        else "Verification code sent (dev mode - no email service configured)",
        Some(code), Some(!emailConfigured))
  }

  /**
   * A successful request stores a fresh six-digit code for the normalised
   * address, live for five minutes, overwriting any earlier one and leaving
   * every other address untouched; the code is echoed back exactly when it
   * may not have reached the mailbox or no mail service is configured.
   */
  lemma SendVerificationCodeStores(
    codes: CodeStore, email: Option<string>, isEmail: string -> bool,
    random: real, now: int, delivered: bool, emailConfigured: bool)
    requires 0.0 <= random < 1.0
    requires SendVerificationCode(codes, email, isEmail, random, now, delivered, emailConfigured).0.status == 200
    ensures var r := SendVerificationCode(codes, email, isEmail, random, now, delivered, emailConfigured);
      var key := Text.Normalize(email.value);
      && r.1.Keys == codes.Keys + {key}
      && |r.1[key].code| == 6
      && r.1[key].expiresAt == now + CodeLifetimeMilliseconds
      && (forall k :: k in codes && k != key ==> r.1[k] == codes[k])
      && r.0.body.CodeSent?
      && (r.0.body.code.Some? <==> !delivered || !emailConfigured)
      && (r.0.body.code.Some? ==> r.0.body.code.value == r.1[key].code)
  {
    var r := SendVerificationCode(codes, email, isEmail, random, now, delivered, emailConfigured);
    var key := Text.Normalize(email.value);
    var entry := CodeEntry(GenerateVerificationCode(random), now + CodeLifetimeMilliseconds);
    assert r.1 == codes[key := entry] && r.0.body == CodeSentBody(entry.code, delivered, emailConfigured);
    IssuedEntry(codes, key, entry, r.0.body, r.1, delivered, emailConfigured);
  }

  /** The store and reply shape that issuing `entry` under `key` produces. */
  lemma IssuedEntry(codes: CodeStore, key: string, entry: CodeEntry, body: Body, codes': CodeStore, delivered: bool, emailConfigured: bool)
    requires codes' == codes[key := entry]
    requires body == CodeSentBody(entry.code, delivered, emailConfigured)
    ensures codes'.Keys == codes.Keys + {key}
    ensures key in codes' && codes'[key] == entry
    ensures forall k :: k in codes && k != key ==> codes'[k] == codes[k]
    ensures body.CodeSent?
    ensures body.code.Some? <==> !delivered || !emailConfigured
    ensures body.code.Some? ==> body.code.value == codes'[key].code
  {
  }

  /** `verifyCode`: valid (consumed), no entry, expired (purged) or mismatch (kept). */
  function VerifyCode(codes: CodeStore, email: Option<string>, code: Option<string>, now: int): (r: (Reply, CodeStore))
    ensures r.0.status == 200 <==>
      && Text.Truthy(email) && Text.Truthy(code)
      && Text.Normalize(email.value) in codes
      && now <= codes[Text.Normalize(email.value)].expiresAt
      && codes[Text.Normalize(email.value)].code == code.value
    ensures r.0.status != 200 ==> r.0.status == 400
    ensures r.0.status == 200 ==> r.1 == codes - {Text.Normalize(email.value)}
    ensures r.0 == Reply(400, Error("Verification code has expired")) ==>
      Text.Truthy(email) && r.1 == codes - {Text.Normalize(email.value)}
    ensures r.0.status == 400 && r.0 != Reply(400, Error("Verification code has expired")) ==> r.1 == codes
    ensures !Text.Truthy(email) || !Text.Truthy(code) ==> r == (Reply(400, Error("Email and code are required")), codes)
    ensures Text.Truthy(email) && Text.Truthy(code) ==> var key := Text.Normalize(email.value);
      && (key !in codes ==> r == (Reply(400, Error("No verification code found for this email")), codes))
      && (key in codes && now > codes[key].expiresAt ==>
            r == (Reply(400, Error("Verification code has expired")), codes - {key}))
      && (key in codes && now <= codes[key].expiresAt && codes[key].code != code.value ==>
            r == (Reply(400, Error("Invalid verification code")), codes))
      && (key in codes && now <= codes[key].expiresAt && codes[key].code == code.value ==>
            r == (Reply(200, Message("Verification code is valid")), codes - {key}))
  {
    if !Text.Truthy(email) || !Text.Truthy(code) then (Reply(400, Error("Email and code are required")), codes)
    else
      var key := Text.Normalize(email.value);
      if key !in codes then (Reply(400, Error("No verification code found for this email")), codes)
      else if now > codes[key].expiresAt then (Reply(400, Error("Verification code has expired")), codes - {key})
      else if codes[key].code != code.value then (Reply(400, Error("Invalid verification code")), codes)
      else (Reply(200, Message("Verification code is valid")), codes - {key})
  }

  /**
   * Issuing then verifying with the issued code succeeds once; the same
   * request again finds no code.
   */
  lemma IssueThenVerifyOnce(
    codes: CodeStore, email: string, isEmail: string -> bool, random: real,
    now: int, delivered: bool, emailConfigured: bool, later: int)
    requires 0.0 <= random < 1.0
    requires |email| > 0 && isEmail(email) && IsAaltoEmail(email)
    requires now <= later <= now + CodeLifetimeMilliseconds
    ensures var issued := SendVerificationCode(codes, Some(email), isEmail, random, now, delivered, emailConfigured);
      var code := GenerateVerificationCode(random);
      var first := VerifyCode(issued.1, Some(email), Some(code), later);
      var second := VerifyCode(first.1, Some(email), Some(code), later);
      && first.0 == Reply(200, Message("Verification code is valid"))
      && second.0 == Reply(400, Error("No verification code found for this email"))
  {
    AaltoEmailOfNormalized(email);
  }

  /** Expiry is strict: a code presented exactly at its expiry time is still accepted. */
  lemma VerifyAtExpiryBoundary(codes: CodeStore, email: string, code: string)
    requires |email| > 0 && |code| > 0
    requires Text.Normalize(email) in codes && codes[Text.Normalize(email)].code == code
    ensures VerifyCode(codes, Some(email), Some(code), codes[Text.Normalize(email)].expiresAt).0.status == 200
  {
  }

  /** After expiry the first attempt reports expiry and purges; the next finds nothing. */
  lemma ExpiredThenNoEntry(codes: CodeStore, email: string, code: string, now: int)
    requires |email| > 0 && |code| > 0
    requires Text.Normalize(email) in codes && now > codes[Text.Normalize(email)].expiresAt
    ensures var first := VerifyCode(codes, Some(email), Some(code), now);
      && first.0 == Reply(400, Error("Verification code has expired"))
      && VerifyCode(first.1, Some(email), Some(code), now).0 == Reply(400, Error("No verification code found for this email"))
  {
  }

  // ---------------------------------------------------------------------
  // Registration, login, logout

  /**
   * `registerUser`. A code, when given, must be stored for the normalised
   * address, equal and unexpired; it is then consumed. Without a code, no
   * code check happens at all.
   */
  function RegisterUser(
    s: State, req: RegisterRequest, isEmail: string -> bool, hash: string -> string,
    newId: string, now: int): (r: (Reply, State))
    ensures r.1.sessions == s.sessions
    ensures r.0.status == 400 ==> r.1 == s
    ensures (req.email.None? || !isEmail(req.email.value)) ==> r.0 == Reply(400, ValidationIssues)
    ensures req.email.Some? && isEmail(req.email.value) && !IsAaltoEmail(req.email.value) ==>
      r == (Reply(400, Error("Please use an Aalto email address (@aalto.fi)")), s)
    ensures req.email.Some? && isEmail(req.email.value) && IsAaltoEmail(req.email.value) ==>
      var key := Text.Normalize(req.email.value);
      && (!CodeAccepted(s.codes, key, req.verificationCode, now) ==>
            r == (Reply(400, Error("Invalid or expired verification code")), s))
      && (CodeAccepted(s.codes, key, req.verificationCode, now) && req.password.None? ==>
            r.0 == Reply(500, ServerError))
    ensures r.0.status == 200 <==>
      && req.email.Some? && isEmail(req.email.value) && IsAaltoEmail(req.email.value)
      && CodeAccepted(s.codes, Text.Normalize(req.email.value), req.verificationCode, now)
      && req.password.Some?
    ensures r.0.status == 200 ==>
      && |r.1.users| == |s.users| + 1
      && r.1.users == s.users + [r.1.users[|s.users|]]
      && r.1.users[|s.users|].id == newId
      && r.1.users[|s.users|].email == Text.Normalize(req.email.value)
      && r.1.users[|s.users|].passwordHash == hash(Text.Trim(req.password.value))
      && r.1.users[|s.users|].username == req.username
      && r.0.body == CreatedRows([r.1.users[|s.users|]])
    ensures r.0.status != 200 ==> r.1.users == s.users
    ensures r.0.status == 200 || r.0.status == 500 ==>
      r.1.codes == (if Text.Truthy(req.verificationCode) then s.codes - {Text.Normalize(req.email.value)} else s.codes)
  {
    if req.email.None? || !isEmail(req.email.value) then (Reply(400, ValidationIssues), s)
    else
      var key := Text.Normalize(req.email.value);
      AaltoEmailOfNormalized(req.email.value);
      if !IsAaltoEmail(key) then (Reply(400, Error("Please use an Aalto email address (@aalto.fi)")), s)
      else if !CodeAccepted(s.codes, key, req.verificationCode, now) then
        (Reply(400, Error("Invalid or expired verification code")), s)
      else
        var codes := if Text.Truthy(req.verificationCode) then s.codes - {key} else s.codes;
        if req.password.None? then (Reply(500, ServerError), s.(codes := codes))
        else
          var created := Users.CreateUser(s.users, newId, req.username, key, hash(Text.Trim(req.password.value)));
          (Reply(200, CreatedRows([created.0])), State(codes, created.1, s.sessions))
  }

  /**
   * The code check of registration: an absent or empty code passes; a given
   * one passes exactly when `verifyCode` would accept it for that address.
   */
  predicate CodeAccepted(codes: CodeStore, key: string, code: Option<string>, now: int)
    ensures !Text.Truthy(code) ==> CodeAccepted(codes, key, code, now)
    ensures Text.Truthy(code) && |key| > 0 && Text.Normalize(key) == key ==>
      (CodeAccepted(codes, key, code, now) <==> VerifyCode(codes, Some(key), code, now).0.status == 200)
  {
    !Text.Truthy(code) || (key in codes && codes[key].code == code.value && now <= codes[key].expiresAt)
  }

  /** Unlike `verifyCode`, a registration with an expired code leaves the entry in place. */
  lemma RegisterWithExpiredCodeKeepsEntry(
    s: State, req: RegisterRequest, isEmail: string -> bool, hash: string -> string, newId: string, now: int)
    requires req.email.Some? && isEmail(req.email.value) && IsAaltoEmail(req.email.value)
    requires Text.Truthy(req.verificationCode)
    requires Text.Normalize(req.email.value) in s.codes && now > s.codes[Text.Normalize(req.email.value)].expiresAt
    ensures var r := RegisterUser(s, req, isEmail, hash, newId, now);
      && r.0 == Reply(400, Error("Invalid or expired verification code"))
      && Text.Normalize(req.email.value) in r.1.codes
  {
    var key := Text.Normalize(req.email.value);
    AaltoEmailOfNormalized(req.email.value);
    assert !CodeAccepted(s.codes, key, req.verificationCode, now);
  }

  /** A code consumed by a registration cannot be used for a second one. */
  lemma RegistrationCodeIsOneShot(
    s: State, req: RegisterRequest, isEmail: string -> bool, hash: string -> string,
    id1: string, id2: string, now: int)
    requires Text.Truthy(req.verificationCode)
    requires RegisterUser(s, req, isEmail, hash, id1, now).0.status == 200
    ensures RegisterUser(RegisterUser(s, req, isEmail, hash, id1, now).1, req, isEmail, hash, id2, now).0
            == Reply(400, Error("Invalid or expired verification code"))
  {
    AaltoEmailOfNormalized(req.email.value);
  }

  /**
   * `loginUser`. The identifier (e-mail, else username, both matched against
   * the e-mail column) is normalised; unknown users and wrong passwords get
   * the same 401 reply, and only a successful login creates a session.
   */
  function LoginUser(
    s: State, req: LoginRequest, verify: (string, string) -> bool, sid: string, now: int): (r: (Reply, State))
    ensures r.1.codes == s.codes && r.1.users == s.users
    ensures !Text.Truthy(req.email) && !Text.Truthy(req.username) ==> r == (Reply(400, Error("Email or username is required")), s)
    ensures r.0.status == 400 <==> !Text.Truthy(req.email) && !Text.Truthy(req.username)
    ensures Text.Truthy(req.email) || Text.Truthy(req.username) ==>
      var rows := Users.GetUserFromEmail(s.users, LoginKey(req));
      && (|rows| > 0 && req.password.None? ==> r == (Reply(500, ServerError), s))
      && (|rows| > 0 && req.password.Some? && verify(Text.Trim(req.password.value), rows[0].passwordHash) ==>
            && r.0 == Reply(200, LoggedIn("Logged in as " + rows[0].email, LoginView(rows[0].id, rows[0].username, rows[0].email)))
            && r.1.sessions == Sessions.CreateSession(s.sessions, rows[0], sid, now).1)
    ensures r.0.status == 401 ==> r.0 == Reply(401, Error(InvalidCredentials))
    ensures r.0.status == 401 <==>
      (Text.Truthy(req.email) || Text.Truthy(req.username)) &&
      var rows := Users.GetUserFromEmail(s.users, LoginKey(req));
      |rows| == 0 || (req.password.Some? && !verify(Text.Trim(req.password.value), rows[0].passwordHash))
    ensures r.0.status != 200 ==> r.1.sessions == s.sessions
    ensures r.0.status == 200 ==>
      && r.0.body.LoggedIn?
      && var u := r.0.body.user;
      && (exists i :: 0 <= i < |s.users| && s.users[i].id == u.id && s.users[i].email == u.email
                      && s.users[i].username == u.username && Text.ToLower(u.email) == Text.ToLower(LoginKey(req)))
      && r.1.sessions.Keys == s.sessions.Keys + {sid}
      && r.1.sessions[sid].user.id == u.id
  {
    if !Text.Truthy(req.email) && !Text.Truthy(req.username) then (Reply(400, Error("Email or username is required")), s)
    else
      var rows := Users.GetUserFromEmail(s.users, LoginKey(req));
      if |rows| == 0 then (Reply(401, Error(InvalidCredentials)), s)
      else
        var user := rows[0];
        if req.password.None? then (Reply(500, ServerError), s)
        else if verify(Text.Trim(req.password.value), user.passwordHash) then
          var created := Sessions.CreateSession(s.sessions, user, sid, now);
          assert user in s.users;
          (Reply(200, LoggedIn("Logged in as " + user.email, LoginView(user.id, user.username, user.email))),
           s.(sessions := created.1))
        else (Reply(401, Error(InvalidCredentials)), s)
  }

  /**
   * The identifier login looks up in the e-mail column: the e-mail if
   * given, else the username, already trimmed and lower-cased.
   */
  function LoginKey(req: LoginRequest): (k: string)
    ensures Text.Normalize(k) == k
    ensures Text.Truthy(req.email) ==> k == Text.Normalize(req.email.value)
    ensures !Text.Truthy(req.email) && Text.Truthy(req.username) ==> k == Text.Normalize(req.username.value)
  {
    if Text.Truthy(req.email) then
      Text.NormalizeIdempotent(req.email.value);
      Text.Normalize(req.email.value)
    else if Text.Truthy(req.username) then
      Text.NormalizeIdempotent(req.username.value);
      Text.Normalize(req.username.value)
    else
      assert Text.Normalize("") == "" by {
        assert Text.Trim("") == "";
      }
      ""
  }

  /** An unknown address and a wrong password for a known one are indistinguishable to the client. */
  lemma LoginFailuresIndistinguishable(
    s: State, unknown: LoginRequest, wrong: LoginRequest, verify: (string, string) -> bool, sid: string, now: int)
    requires Text.Truthy(unknown.email) && |Users.GetUserFromEmail(s.users, LoginKey(unknown))| == 0
    requires Text.Truthy(wrong.email) && wrong.password.Some?
    requires var rows := Users.GetUserFromEmail(s.users, LoginKey(wrong));
      |rows| > 0 && !verify(Text.Trim(wrong.password.value), rows[0].passwordHash)
    ensures LoginUser(s, unknown, verify, sid, now).0 == LoginUser(s, wrong, verify, sid, now).0
  {
  }

  /** `logoutUser`: deletes the cookie's session and always reports success. */
  function LogoutUser(s: State, cookie: Option<string>): (r: (Reply, State))
    ensures r.0 == Reply(200, Message("Session deleted."))
    ensures r.1.codes == s.codes && r.1.users == s.users
    ensures Text.Truthy(cookie) ==> cookie.value !in r.1.sessions
    ensures r.1.sessions.Keys <= s.sessions.Keys
    ensures r.1.sessions == Sessions.DeleteSession(s.sessions, cookie)
    ensures forall k :: k in s.sessions && !(Text.Truthy(cookie) && k == cookie.value) ==>
      k in r.1.sessions && r.1.sessions[k] == s.sessions[k]
  {
    (Reply(200, Message("Session deleted.")), s.(sessions := Sessions.DeleteSession(s.sessions, cookie)))
  }

  /** After logout the cookie no longer resolves, and every other cookie resolves as before. */
  lemma LogoutThenResolve(s: State, cookie: Option<string>, other: Option<string>, now: int)
    ensures var after := LogoutUser(s, cookie).1;
      && Sessions.GetUserFromSession(after.sessions, cookie, now).0.None?
      && (!(Text.Truthy(cookie) && other == cookie) ==>
            Sessions.GetUserFromSession(after.sessions, other, now).0 == Sessions.GetUserFromSession(s.sessions, other, now).0)
  {
    Sessions.DeleteThenResolve(s.sessions, cookie, other, now);
  }

  /**
   * A fresh address registered with a password can log in with that
   * password (given that `verify` accepts what `hash` produced), and the
   * session created belongs to the new row.
   */
  lemma {:induction false} RegisterThenLogin(
    s: State, req: RegisterRequest, isEmail: string -> bool, hash: string -> string,
    verify: (string, string) -> bool, newId: string, sid: string, now: int)
    requires RegisterUser(s, req, isEmail, hash, newId, now).0.status == 200
    requires forall i :: 0 <= i < |s.users| ==> Text.ToLower(s.users[i].email) != Text.Normalize(req.email.value)
    requires forall p :: verify(p, hash(p))
    requires |sid| > 0
    ensures var registered := RegisterUser(s, req, isEmail, hash, newId, now).1;
      var login := LoginUser(registered, LoginRequest(req.email, None, req.password), verify, sid, now);
      && login.0.status == 200
      && login.0.body.user.id == newId
      && Sessions.GetUserFromSession(login.1.sessions, Some(sid), now).0 == Some(registered.users[|s.users|])
  {
    var registered := RegisterUser(s, req, isEmail, hash, newId, now).1;
    var key := Text.Normalize(req.email.value);
    var u := registered.users[|s.users|];
    var lr := LoginRequest(req.email, None, req.password);
    assert registered.users == s.users + [u] && u.email == key && u.id == newId;
    assert Text.Truthy(req.email) && LoginKey(lr) == key && Text.ToLower(key) == key by {
      AaltoKey(req.email.value);
    }
    assert Users.GetUserFromEmail(registered.users, LoginKey(lr)) == [u] by {
      Users.GetUserFromEmailAppend(s.users, u, key);
    }
    assert verify(Text.Trim(req.password.value), u.passwordHash) by {
      assert u.passwordHash == hash(Text.Trim(req.password.value));
    }
    LoginFindsOnlyRow(registered, lr, verify, sid, now, u);
  }

  /** An address at the domain is not empty, and its stored key is already lower case. */
  lemma AaltoKey(email: string)
    requires IsAaltoEmail(email)
    ensures |email| > 0
    ensures Text.ToLower(Text.Normalize(email)) == Text.Normalize(email)
  {
    Text.NormalizeShape(email);
    Text.ToLowerIdempotent(Text.Trim(email));
  }

  /** Login with an identifier that finds exactly one row, and the right password, opens a session for that row. */
  lemma LoginFindsOnlyRow(s: State, req: LoginRequest, verify: (string, string) -> bool, sid: string, now: int, u: Users.User)
    requires Text.Truthy(req.email) && req.password.Some? && |sid| > 0
    requires Users.GetUserFromEmail(s.users, LoginKey(req)) == [u]
    requires verify(Text.Trim(req.password.value), u.passwordHash)
    ensures var login := LoginUser(s, req, verify, sid, now);
      && login.0.status == 200
      && login.0.body.user.id == u.id
      && Sessions.GetUserFromSession(login.1.sessions, Some(sid), now).0 == Some(u)
  {
    var login := LoginUser(s, req, verify, sid, now);
    assert login.1.sessions == Sessions.CreateSession(s.sessions, u, sid, now).1;
  }
}

=== FILE: decimal.dfy ===
/**
 * Decimal rendering of natural numbers, as `Number.prototype.toString()`
 * produces it for non-negative integers below 10^21 (larger ones switch to
 * exponent notation, which no caller here reaches), and the inverse reading.
 */
module Decimal {

  predicate IsDigit(c: char) {
    '0' <= c <= '9'
  }

  predicate AllDigits(s: string) {
    forall i :: 0 <= i < |s| ==> IsDigit(s[i])
  }

  function DigitChar(d: nat): (c: char)
    requires d < 10
    ensures IsDigit(c) && c as int - '0' as int == d
  {
    ('0' as int + d) as char
  }

  function Pow10(k: nat): (r: nat)
    ensures r >= 1
  {
    if k == 0 then 1 else 10 * Pow10(k - 1)
  }

  /** `n.toString()` for `n < 10^21`: digits only, no leading zero except for `0` itself. */
  function NatToString(n: nat): (r: string)
    ensures |r| >= 1 && AllDigits(r)
    ensures |r| > 1 ==> r[0] != '0'
    decreases n
  {
    if n < 10 then [DigitChar(n)] else NatToString(n / 10) + [DigitChar(n % 10)]
  }

  /** The number a string of decimal digits denotes. */
  function Value(s: string): nat
    requires AllDigits(s)
  {
    if |s| == 0 then 0 else 10 * Value(s[..|s| - 1]) + (s[|s| - 1] as int - '0' as int)
  }

  /** Reading back a rendered number gives the number. */
  lemma {:induction false} ValueOfNatToString(n: nat)
    ensures Value(NatToString(n)) == n
    decreases n
  {
    if n >= 10 {
      var s := NatToString(n);
      assert s[..|s| - 1] == NatToString(n / 10);
      ValueOfNatToString(n / 10);
    }
  }

  /** Rendering is injective: different numbers never share a string. */
  lemma NatToStringInjective(m: nat, n: nat)
    ensures NatToString(m) == NatToString(n) ==> m == n
  {
    ValueOfNatToString(m);
    ValueOfNatToString(n);
  }

  /** A number with `k` digits renders to exactly `k` characters. */
  lemma {:induction false} NatToStringLength(n: nat, k: nat)
    requires k >= 1 && n < Pow10(k)
    requires k > 1 ==> Pow10(k - 1) <= n
    ensures |NatToString(n)| == k
    decreases k
  {
    if k > 1 {
      assert Pow10(k) == 10 * Pow10(k - 1);
      if k > 2 {
        assert Pow10(k - 1) == 10 * Pow10(k - 2);
      }
      NatToStringLength(n / 10, k - 1);
    }
  }
}

=== FILE: legacy_auth_control.dfy ===
/**
 * The older authentication controller of the server: no domain policy, no
 * verification codes, distinct messages for an unknown address and a wrong
 * password, and a validation failure reported with status 201.
 */
module LegacyAuthControl {
  import opened Wrappers
  import Text
  import Users
  import Sessions

  datatype State = State(users: seq<Users.User>, sessions: Sessions.Store)

  datatype Body =
    | Message(message: string)
    | ValidationIssues                       // the validator's formatted error object
    | CreatedRows(rows: seq<Users.User>)
    | ServerError                            // an exception escaped the handler

  datatype Reply = Reply(status: int, body: Body)

  datatype RegisterRequest = RegisterRequest(username: string, email: Option<string>, password: Option<string>)

  datatype LoginRequest = LoginRequest(email: Option<string>, password: Option<string>)

  /**
   * `registerUser`: a malformed address is answered with the validation
   * errors under status 201 and nothing is stored; otherwise the user is
   * stored with the normalised address and the hash of the trimmed password.
   */
  function RegisterUser(s: State, req: RegisterRequest, isEmail: string -> bool, hash: string -> string, newId: string): (r: (Reply, State))
    ensures r.1.sessions == s.sessions
    ensures (req.email.None? || !isEmail(req.email.value)) ==> r == (Reply(201, ValidationIssues), s)
    ensures r.0.status == 200 <==> req.email.Some? && isEmail(req.email.value) && req.password.Some?
    ensures r.0.status != 200 ==> r.1 == s
    ensures req.email.Some? && isEmail(req.email.value) && req.password.None? ==> r == (Reply(500, ServerError), s)
    ensures r.0.status == 200 ==>
      && |r.1.users| == |s.users| + 1
      && r.1.users[..|s.users|] == s.users
      && var u := r.1.users[|s.users|];
      && u.id == newId && u.username == req.username
      && u.email == Text.Normalize(req.email.value)
      && u.passwordHash == hash(Text.Trim(req.password.value))
      && r.0.body == CreatedRows([u])
  {
    if req.email.None? || !isEmail(req.email.value) then (Reply(201, ValidationIssues), s)
    else if req.password.None? then (Reply(500, ServerError), s)
    else
      var created := Users.CreateUser(s.users, newId, req.username, Text.Normalize(req.email.value), hash(Text.Trim(req.password.value)));
      (Reply(200, CreatedRows([created.0])), s.(users := created.1))
  }

  /**
   * `loginUser`: looks the normalised address up; reports an unknown
   * address by name and a wrong password as such, both with status 200, and
   * creates exactly one session on success.
   */
  function LoginUser(s: State, req: LoginRequest, verify: (string, string) -> bool, sid: string, now: int): (r: (Reply, State))
    ensures r.1.users == s.users
    ensures req.email.None? ==> r == (Reply(500, ServerError), s)
    ensures req.email.Some? && |Users.GetUserFromEmail(s.users, Text.Normalize(req.email.value))| == 0 ==>
      r == (Reply(200, Message("No users found with email: " + Text.Normalize(req.email.value))), s)
    ensures !LoginSucceeds(s, req, verify) ==> r.1 == s
    ensures LoginSucceeds(s, req, verify) ==>
      && var user := Users.GetUserFromEmail(s.users, Text.Normalize(req.email.value))[0];
      && r.0 == Reply(200, Message("Logged in as " + user.email))
      && r.1.sessions.Keys == s.sessions.Keys + {sid}
      && r.1.sessions[sid].user == user
      && r.1.sessions == Sessions.CreateSession(s.sessions, user, sid, now).1
    ensures req.email.Some? ==>
      var rows := Users.GetUserFromEmail(s.users, Text.Normalize(req.email.value));
      && (|rows| > 0 && req.password.None? ==> r == (Reply(500, ServerError), s))
      && (|rows| > 0 && req.password.Some? && !verify(Text.Trim(req.password.value), rows[0].passwordHash) ==>
            r == (Reply(200, Message("Incorrect password.")), s))
  {
    if req.email.None? then (Reply(500, ServerError), s)
    else
      var key := Text.Normalize(req.email.value);
      var rows := Users.GetUserFromEmail(s.users, key);
      if |rows| == 0 then (Reply(200, Message("No users found with email: " + key)), s)
      else if req.password.None? then (Reply(500, ServerError), s)
      else if verify(Text.Trim(req.password.value), rows[0].passwordHash) then
        var created := Sessions.CreateSession(s.sessions, rows[0], sid, now);
        (Reply(200, Message("Logged in as " + rows[0].email)), s.(sessions := created.1))
      else (Reply(200, Message("Incorrect password.")), s)
  }

  /** A known address whose stored hash accepts the trimmed password. */
  predicate LoginSucceeds(s: State, req: LoginRequest, verify: (string, string) -> bool) {
    && req.email.Some? && req.password.Some?
    && var rows := Users.GetUserFromEmail(s.users, Text.Normalize(req.email.value));
    && |rows| > 0 && verify(Text.Trim(req.password.value), rows[0].passwordHash)
  }

  /** `logoutUser`: deletes the cookie's session and always reports success. */
  function LogoutUser(s: State, cookie: Option<string>): (r: (Reply, State))
    ensures r.0 == Reply(200, Message("Session deleted."))
    ensures r.1.users == s.users
    ensures Text.Truthy(cookie) ==> cookie.value !in r.1.sessions
    ensures !Text.Truthy(cookie) ==> r.1 == s
    ensures r.1.sessions == Sessions.DeleteSession(s.sessions, cookie)
    ensures forall k :: k in s.sessions && !(Text.Truthy(cookie) && k == cookie.value) ==>
      k in r.1.sessions && r.1.sessions[k] == s.sessions[k]
  {
    (Reply(200, Message("Session deleted.")), s.(sessions := Sessions.DeleteSession(s.sessions, cookie)))
  }

  /** After logout the cookie no longer resolves, and every other cookie resolves as before. */
  lemma LogoutThenResolve(s: State, cookie: Option<string>, other: Option<string>, now: int)
    ensures var after := LogoutUser(s, cookie).1;
      && Sessions.GetUserFromSession(after.sessions, cookie, now).0.None?
      && (!(Text.Truthy(cookie) && other == cookie) ==>
            Sessions.GetUserFromSession(after.sessions, other, now).0 == Sessions.GetUserFromSession(s.sessions, other, now).0)
  {
    Sessions.DeleteThenResolve(s.sessions, cookie, other, now);
  }

  /**
   * A fresh address registered with a password can log in with that
   * password (given that `verify` accepts what `hash` produced), and the
   * session created belongs to the new row.
   */
  lemma RegisterThenLogin(
    s: State, req: RegisterRequest, isEmail: string -> bool, hash: string -> string,
    verify: (string, string) -> bool, newId: string, sid: string, now: int)
    requires RegisterUser(s, req, isEmail, hash, newId).0.status == 200
    requires forall i :: 0 <= i < |s.users| ==> Text.ToLower(s.users[i].email) != Text.Normalize(req.email.value)
    requires forall p :: verify(p, hash(p))
    requires |sid| > 0
    ensures var registered := RegisterUser(s, req, isEmail, hash, newId).1;
      var login := LoginUser(registered, LoginRequest(req.email, req.password), verify, sid, now);
      && login.0.status == 200
      && Sessions.GetUserFromSession(login.1.sessions, Some(sid), now).0 == Some(registered.users[|s.users|])
  {
    var registered := RegisterUser(s, req, isEmail, hash, newId).1;
    var key := Text.Normalize(req.email.value);
    var u := registered.users[|s.users|];
    var lr := LoginRequest(req.email, req.password);
    assert registered.users == s.users + [u] by {
      assert registered.users == registered.users[..|s.users|] + [u];
    }
    assert Text.ToLower(key) == key by {
      Text.ToLowerIdempotent(Text.Trim(req.email.value));
    }
    assert Users.GetUserFromEmail(registered.users, key) == [u] by {
      Users.GetUserFromEmailAppend(s.users, u, key);
    }
    assert LoginSucceeds(registered, lr, verify) by {
      assert u.passwordHash == hash(Text.Trim(req.password.value));
    }
  }

  /**
   * In contrast to the Aalto controller, this one tells an unknown address
   * apart from a wrong password.
   */
  lemma LoginRevealsUnknownAddress(
    s: State, unknown: LoginRequest, wrong: LoginRequest, verify: (string, string) -> bool, sid: string, now: int)
    requires unknown.email.Some? && |Users.GetUserFromEmail(s.users, Text.Normalize(unknown.email.value))| == 0
    requires wrong.email.Some? && wrong.password.Some?
    requires var rows := Users.GetUserFromEmail(s.users, Text.Normalize(wrong.email.value));
      |rows| > 0 && !verify(Text.Trim(wrong.password.value), rows[0].passwordHash)
    ensures LoginUser(s, unknown, verify, sid, now).0 != LoginUser(s, wrong, verify, sid, now).0
  {
    var m := "No users found with email: " + Text.Normalize(unknown.email.value);
    assert m[0] == 'N' && "Incorrect password."[0] == 'I';
  }
}

=== FILE: message_control.dfy ===
/**
 * The message endpoints: authentication and required-field guards around
 * the message service. `user` is the id of the user the session middleware
 * resolved (`c.user?.id`), `None` for an anonymous request.
 */
module MessageControl {
  import opened Wrappers
  import Text
  import MessageService

  datatype Body =
    | Error(error: string)
    | Failure(error: string)                 // a caught exception, answered with 500
    | Created(message: MessageService.Message)
    | Thread(messages: seq<MessageService.Message>)
    | Inbox(rows: seq<MessageService.Summary>)
    | ConversationView(messages: seq<MessageService.Message>, taskId: string, otherUserId: string)

  datatype Reply = Reply(status: int, body: Body)

  /** The fields of a message body; each may be missing. */
  datatype SendFields = SendFields(taskId: Option<string>, receiverId: Option<string>, content: Option<string>)

  /**
   * The request body: not valid JSON, the JSON value `null` (which cannot
   * be destructured), or the fields of any other value.
   */
  datatype SendBody = Unparseable | Null | Parsed(fields: SendFields)

  const Unauthorized: Reply := Reply(401, Error("Unauthorized"))
  const MissingParameters: Reply := Reply(400, Error("Missing required parameters: taskId, otherUserId"))

  /**
   * `sendMessage`. The body is parsed before anything else, so a parse
   * failure is a 500 even for an anonymous caller. A `null` body passes the
   * session check and then throws when its fields are read, which is a 500
   * too. The sender is always the session user.
   */
  function SendMessage(db: MessageService.Db, body: SendBody, user: Option<string>, id: string, now: int): (r: (Reply, MessageService.Db))
    ensures body.Unparseable? ==> r == (Reply(500, Failure("Failed to send message")), db)
    ensures !body.Unparseable? && !Text.Truthy(user) ==> r == (Unauthorized, db)
    ensures body.Null? && Text.Truthy(user) ==> r == (Reply(500, Failure("Failed to send message")), db)
    ensures r.0.status != 201 ==> r.1 == db
    ensures body.Parsed? && Text.Truthy(user) ==>
      var f := body.fields;
      !Text.Truthy(f.taskId) || !Text.Truthy(f.receiverId) || !Text.Truthy(f.content) ==>
        r == (Reply(400, Error("Missing required fields: task_id, receiver_id, content")), db)
    ensures r.0.status == 201 <==>
      && body.Parsed? && Text.Truthy(user)
      && Text.Truthy(body.fields.taskId) && Text.Truthy(body.fields.receiverId) && Text.Truthy(body.fields.content)
    ensures r.0.status == 201 ==>
      && r.0.body.Created?
      && var m := r.0.body.message;
      && m.senderId == user.value
      && m.receiverId == body.fields.receiverId.value
      && m.taskId == body.fields.taskId.value
      && m.content == body.fields.content.value
      && m.readAt.None?
      && r.1.messages == db.messages + [m]
      && r.1 == MessageService.CreateMessage(db, m.taskId, m.senderId, m.receiverId, m.content, id, now).1
  {
    if body.Unparseable? then (Reply(500, Failure("Failed to send message")), db)
    else if !Text.Truthy(user) then (Unauthorized, db)
    else if body.Null? then (Reply(500, Failure("Failed to send message")), db)
    else
      var f := body.fields;
      if !Text.Truthy(f.taskId) || !Text.Truthy(f.receiverId) || !Text.Truthy(f.content) then
        (Reply(400, Error("Missing required fields: task_id, receiver_id, content")), db)
      else
        var created := MessageService.CreateMessage(db, f.taskId.value, user.value, f.receiverId.value, f.content.value, id, now);
        (Reply(201, Created(created.0)), created.1)
  }

  /**
   * `getConversationMessages`: fetches the thread, then marks what the
   * other participant sent as read. The reply is the thread as it was
   * before the marking.
   */
  function GetConversationMessages(db: MessageService.Db, user: Option<string>, taskId: Option<string>, otherUserId: Option<string>, now: int): (r: (Reply, MessageService.Db))
    ensures !Text.Truthy(user) ==> r == (Unauthorized, db)
    ensures Text.Truthy(user) && (!Text.Truthy(taskId) || !Text.Truthy(otherUserId)) ==> r == (MissingParameters, db)
    ensures r.0.status == 200 <==> Text.Truthy(user) && Text.Truthy(taskId) && Text.Truthy(otherUserId)
    ensures r.0.status == 200 ==>
      && r.0.body.Thread?
      && (forall i :: 0 <= i < |r.0.body.messages| ==>
            r.0.body.messages[i] in db.messages
            && MessageService.InThread(r.0.body.messages[i], taskId.value, user.value, otherUserId.value))
      && (forall i :: 0 <= i < |db.messages| && MessageService.InThread(db.messages[i], taskId.value, user.value, otherUserId.value) ==>
            db.messages[i] in r.0.body.messages)
      && r.0.body.messages == MessageService.GetConversationMessages(db, taskId.value, user.value, otherUserId.value)
      && r.1.conversations == db.conversations
      && |r.1.messages| == |db.messages|
      && (forall i :: 0 <= i < |db.messages| ==>
            !MessageService.UnreadFrom(r.1.messages[i], taskId.value, user.value, otherUserId.value))
      && r.1 == MessageService.MarkConversationAsRead(db, taskId.value, user.value, otherUserId.value, now).1
  {
    if !Text.Truthy(user) then (Unauthorized, db)
    else if !Text.Truthy(taskId) || !Text.Truthy(otherUserId) then (MissingParameters, db)
    else
      var messages := MessageService.GetConversationMessages(db, taskId.value, user.value, otherUserId.value);
      var marked := MessageService.MarkConversationAsRead(db, taskId.value, user.value, otherUserId.value, now);
      (Reply(200, Thread(messages)), marked.1)
  }

  /**
   * Fetching a thread shows an unread message as unread, although the same
   * call marks it read.
   */
  lemma ThreadShowsReadStateBeforeMarking(db: MessageService.Db, user: string, taskId: string, otherUserId: string, now: int, k: nat)
    requires |user| > 0 && |taskId| > 0 && |otherUserId| > 0
    requires k < |db.messages| && MessageService.UnreadFrom(db.messages[k], taskId, user, otherUserId)
    ensures var r := GetConversationMessages(db, Some(user), Some(taskId), Some(otherUserId), now);
      && db.messages[k] in r.0.body.messages
      && db.messages[k].readAt.None?
      && r.1.messages[k].readAt == Some(now)
  {
  }

  /** `getUserConversations`. */
  function GetUserConversations(db: MessageService.Db, user: Option<string>): (r: Reply)
    ensures !Text.Truthy(user) ==> r == Unauthorized
    ensures Text.Truthy(user) ==>
      && r.status == 200 && r.body.Inbox?
      && (forall i :: 0 <= i < |r.body.rows| ==> MessageService.Involves(r.body.rows[i].conversation, user.value))
      && r.body.rows == MessageService.GetUserConversations(db, user.value)
  {
    if !Text.Truthy(user) then Unauthorized
    else Reply(200, Inbox(MessageService.GetUserConversations(db, user.value)))
  }

  /**
   * `getOrCreateConversation`: despite its name, only reads. A pair without
   * messages gets an empty list, not an error.
   */
  function GetOrCreateConversation(db: MessageService.Db, user: Option<string>, taskId: Option<string>, otherUserId: Option<string>): (r: Reply)
    ensures !Text.Truthy(user) ==> r == Unauthorized
    ensures Text.Truthy(user) && (!Text.Truthy(taskId) || !Text.Truthy(otherUserId)) ==> r == MissingParameters
    ensures r.status == 200 <==> Text.Truthy(user) && Text.Truthy(taskId) && Text.Truthy(otherUserId)
    ensures r.status == 200 ==>
      && r.body.ConversationView?
      && r.body.taskId == taskId.value && r.body.otherUserId == otherUserId.value
      && r.body.messages == MessageService.GetConversationMessages(db, taskId.value, user.value, otherUserId.value)
      && (forall i :: 0 <= i < |db.messages| && MessageService.InThread(db.messages[i], taskId.value, user.value, otherUserId.value) ==>
            db.messages[i] in r.body.messages)
      && (forall i :: 0 <= i < |r.body.messages| ==>
            r.body.messages[i] in db.messages
            && MessageService.InThread(r.body.messages[i], taskId.value, user.value, otherUserId.value))
      && ((forall i :: 0 <= i < |db.messages| ==>
            !MessageService.InThread(db.messages[i], taskId.value, user.value, otherUserId.value)) ==> |r.body.messages| == 0)
  {
    if !Text.Truthy(user) then Unauthorized
    else if !Text.Truthy(taskId) || !Text.Truthy(otherUserId) then MissingParameters
    else
      var messages := MessageService.GetConversationMessages(db, taskId.value, user.value, otherUserId.value);
      Reply(200, ConversationView(messages, taskId.value, otherUserId.value))
  }

  /**
   * Opening a conversation shows the same list as fetching its thread
   * would, without the marking the fetch does.
   */
  lemma OpenConversationMatchesThread(db: MessageService.Db, user: Option<string>, taskId: Option<string>, otherUserId: Option<string>, now: int)
    requires Text.Truthy(user) && Text.Truthy(taskId) && Text.Truthy(otherUserId)
    ensures GetOrCreateConversation(db, user, taskId, otherUserId).body.messages
            == GetConversationMessages(db, user, taskId, otherUserId, now).0.body.messages
  {
  }

  /**
   * After a message is sent, the conversation appears in both
   * participants' inboxes, each naming the other participant and pointing
   * at the new message.
   */
  lemma SentMessageInBothInboxes(
    db: MessageService.Db, taskId: string, sender: string, receiver: string, content: string, id: string, now: int)
    requires |taskId| > 0 && |sender| > 0 && |receiver| > 0 && |content| > 0
    requires MessageService.UniqueKeys(db.conversations)
    ensures var after := SendMessage(db, Parsed(SendFields(Some(taskId), Some(receiver), Some(content))), Some(sender), id, now).1;
      && InboxShows(after, receiver, MessageService.ConversationKeyFor(taskId, sender, receiver), sender, id)
      && InboxShows(after, sender, MessageService.ConversationKeyFor(taskId, sender, receiver), receiver, id)
  {
    var after := SendMessage(db, Parsed(SendFields(Some(taskId), Some(receiver), Some(content))), Some(sender), id, now).1;
    var k := MessageService.ConversationKeyFor(taskId, sender, receiver);
    var i :| 0 <= i < |after.conversations| && MessageService.KeyOf(after.conversations[i]) == k;
    var c := after.conversations[i];
    assert c.lastMessageId == id;
    InboxShowsRow(after, receiver, i, sender);
    InboxShowsRow(after, sender, i, receiver);
  }

  /** `user`'s inbox has a row for the conversation with key `k`, naming `other` and pointing at message `id`. */
  ghost predicate InboxShows(db: MessageService.Db, user: string, k: MessageService.ConversationKey, other: string, id: string) {
    && |user| > 0
    && var rows := GetUserConversations(db, Some(user)).body.rows;
    exists j :: 0 <= j < |rows| && MessageService.KeyOf(rows[j].conversation) == k
      && rows[j].otherUserId == other && rows[j].conversation.lastMessageId == id
  }

  lemma InboxShowsRow(db: MessageService.Db, user: string, i: nat, other: string)
    requires |user| > 0 && i < |db.conversations|
    requires var c := db.conversations[i]; (c.user1 == user && c.user2 == other) || (c.user2 == user && c.user1 == other)
    ensures InboxShows(db, user, MessageService.KeyOf(db.conversations[i]), other, db.conversations[i].lastMessageId)
  {
    var rows := GetUserConversations(db, Some(user)).body.rows;
    assert MessageService.Involves(db.conversations[i], user);
    var j :| 0 <= j < |rows| && rows[j].conversation == db.conversations[i];
  }

  /** Sending in both directions on one task leaves a single conversation row for the pair. */
  lemma BothDirectionsShareOneConversation(
    db: MessageService.Db, taskId: string, a: string, b: string, c1: string, c2: string, id1: string, id2: string, t1: int, t2: int)
    requires |taskId| > 0 && |a| > 0 && |b| > 0 && |c1| > 0 && |c2| > 0
    requires MessageService.UniqueKeys(db.conversations)
    ensures var first := SendMessage(db, Parsed(SendFields(Some(taskId), Some(b), Some(c1))), Some(a), id1, t1).1;
      var second := SendMessage(first, Parsed(SendFields(Some(taskId), Some(a), Some(c2))), Some(b), id2, t2).1;
      var k := MessageService.ConversationKeyFor(taskId, a, b);
      && MessageService.UniqueKeys(second.conversations)
      && (exists i :: 0 <= i < |second.conversations| && MessageService.KeyOf(second.conversations[i]) == k)
      && |second.conversations| <= |db.conversations| + 1
      && forall i :: 0 <= i < |second.conversations| && MessageService.KeyOf(second.conversations[i]) == k ==>
           second.conversations[i].lastMessageId == id2
  {
    MessageService.CanonicalPairSymmetric(a, b);
  }
}

=== FILE: message_service.dfy ===
/**
 * The message thread model: an append-only `messages` table, a
 * `conversations` table holding one row per task and canonically ordered
 * user pair, the thread and inbox queries, and the read-state updates.
 * `CURRENT_TIMESTAMP` is the explicit `now`; the new message id is the
 * random UUID the caller drew.
 */
module MessageService {
  import opened Wrappers
  import Text
  import Seqs

  datatype Message = Message(
    id: string,
    taskId: string,
    senderId: string,
    receiverId: string,
    content: string,
    createdAt: int,
    readAt: Option<int>)

  datatype Conversation = Conversation(
    taskId: string,
    user1: string,
    user2: string,
    lastMessageAt: int,
    lastMessageId: string)

  /** The unique key of the conversations table. */
  datatype ConversationKey = ConversationKey(taskId: string, user1: string, user2: string)

  datatype Db = Db(messages: seq<Message>, conversations: seq<Conversation>)

  function KeyOf(c: Conversation): ConversationKey {
    ConversationKey(c.taskId, c.user1, c.user2)
  }

  /** The table's uniqueness constraint on (task_id, user1_id, user2_id). */
  predicate UniqueKeys(cs: seq<Conversation>) {
    forall i, j :: 0 <= i < j < |cs| ==> KeyOf(cs[i]) != KeyOf(cs[j])
  }

  /** The pair ordered so that the first is not greater than the second. */
  function CanonicalPair(a: string, b: string): (p: (string, string))
    ensures (p == (a, b)) || (p == (b, a))
    ensures !Text.Less(p.1, p.0)
  {
    Text.LessAsymmetric(a, b);
    Text.LessTotal(a, b);
    Text.LessIrreflexive(a);
    if Text.Less(a, b) then (a, b) else (b, a)
  }

  /** Both directions of a conversation name the same pair. */
  lemma CanonicalPairSymmetric(a: string, b: string)
    ensures CanonicalPair(a, b) == CanonicalPair(b, a)
  {
    Text.LessAsymmetric(a, b);
    Text.LessTotal(a, b);
  }

  function ConversationKeyFor(taskId: string, a: string, b: string): ConversationKey {
    var p := CanonicalPair(a, b);
    ConversationKey(taskId, p.0, p.1)
  }

  /** Index of the row with key `k`, or `|cs|` when there is none. */
  function FindKey(cs: seq<Conversation>, k: ConversationKey): (i: nat)
    ensures i <= |cs|
    ensures i < |cs| ==> KeyOf(cs[i]) == k
    ensures forall j :: 0 <= j < i ==> KeyOf(cs[j]) != k
  {
    if |cs| == 0 then 0
    else if KeyOf(cs[0]) == k then 0
    else 1 + FindKey(cs[1..], k)
  }

  /**
   * `updateConversation`: `INSERT ... ON CONFLICT (task_id, user1_id,
   * user2_id) DO UPDATE`. The row for the canonical pair points at the new
   * message: updated in place when it exists, appended otherwise.
   */
  function UpdateConversation(cs: seq<Conversation>, taskId: string, a: string, b: string, messageId: string, now: int): (r: seq<Conversation>)
    ensures var k := ConversationKeyFor(taskId, a, b); var i := FindKey(cs, k);
      && (i < |cs| ==> |r| == |cs|)
      && (i == |cs| ==> |r| == |cs| + 1 && r[..|cs|] == cs)
      && KeyOf(r[i]) == k && r[i].lastMessageId == messageId && r[i].lastMessageAt == now
      && (forall j :: 0 <= j < |cs| && j != i ==> r[j] == cs[j])
    ensures UniqueKeys(cs) ==> UniqueKeys(r)
  {
    var k := ConversationKeyFor(taskId, a, b);
    var row := Conversation(k.taskId, k.user1, k.user2, now, messageId);
    var i := FindKey(cs, k);
    if i < |cs| then cs[i := row] else cs + [row]
  }

  /** Sending in either direction upserts the same row. */
  lemma UpdateConversationSymmetric(cs: seq<Conversation>, taskId: string, a: string, b: string, messageId: string, now: int)
    ensures UpdateConversation(cs, taskId, a, b, messageId, now) == UpdateConversation(cs, taskId, b, a, messageId, now)
  {
    CanonicalPairSymmetric(a, b);
  }

  /**
   * `createMessage`: appends the message, unread, stamped `now`, and points
   * the pair's conversation at it.
   */
  function CreateMessage(db: Db, taskId: string, senderId: string, receiverId: string, content: string, id: string, now: int): (r: (Message, Db))
    ensures r.1.messages == db.messages + [r.0]
    ensures r.0 == Message(id, taskId, senderId, receiverId, content, now, None)
    ensures var k := ConversationKeyFor(taskId, senderId, receiverId);
      && (exists i :: 0 <= i < |r.1.conversations| && KeyOf(r.1.conversations[i]) == k)
      && (UniqueKeys(db.conversations) ==>
            forall i :: 0 <= i < |r.1.conversations| && KeyOf(r.1.conversations[i]) == k ==>
              r.1.conversations[i].lastMessageId == id)
    ensures UniqueKeys(db.conversations) ==> UniqueKeys(r.1.conversations)
    ensures r.1.conversations == UpdateConversation(db.conversations, taskId, senderId, receiverId, id, now)
  {
    var m := Message(id, taskId, senderId, receiverId, content, now, None);
    var cs := UpdateConversation(db.conversations, taskId, senderId, receiverId, id, now);
    assert KeyOf(cs[FindKey(db.conversations, ConversationKeyFor(taskId, senderId, receiverId))]) == ConversationKeyFor(taskId, senderId, receiverId);
    (m, Db(db.messages + [m], cs))
  }

  // ---------------------------------------------------------------------
  // Queries

  /** The message belongs to the task and passes between `u1` and `u2`, either way. */
  predicate InThread(m: Message, taskId: string, u1: string, u2: string) {
    && m.taskId == taskId
    && ((m.senderId == u1 && m.receiverId == u2) || (m.senderId == u2 && m.receiverId == u1))
  }

  function CreatedAt(m: Message): int {
    m.createdAt
  }

  /** `getConversationMessages`: the thread, oldest first. */
  function GetConversationMessages(db: Db, taskId: string, u1: string, u2: string): (r: seq<Message>)
    ensures forall i :: 0 <= i < |r| ==> r[i] in db.messages && InThread(r[i], taskId, u1, u2)
    ensures forall i :: 0 <= i < |db.messages| && InThread(db.messages[i], taskId, u1, u2) ==> db.messages[i] in r
    ensures forall i, j :: 0 <= i < j < |r| ==> r[i].createdAt <= r[j].createdAt
    ensures multiset(r) == multiset(Seqs.Filter(db.messages, (m: Message) => InThread(m, taskId, u1, u2)))
  {
    var thread := Seqs.Filter(db.messages, (m: Message) => InThread(m, taskId, u1, u2));
    var r := Seqs.SortBy(thread, CreatedAt);
    Seqs.PermutationMembers(r, thread);
    r
  }

  /** The thread does not depend on which participant asks. */
  lemma GetConversationMessagesSymmetric(db: Db, taskId: string, u1: string, u2: string)
    ensures GetConversationMessages(db, taskId, u1, u2) == GetConversationMessages(db, taskId, u2, u1)
  {
    Seqs.FilterExtensional(db.messages,
      (m: Message) => InThread(m, taskId, u1, u2),
      (m: Message) => InThread(m, taskId, u2, u1));
  }

  /** With a clock that never runs backwards, the thread lists messages in the order they were sent. */
  lemma ThreadInSendingOrder(db: Db, taskId: string, u1: string, u2: string)
    requires Seqs.SortedBy(db.messages, CreatedAt)
    ensures GetConversationMessages(db, taskId, u1, u2) == Seqs.Filter(db.messages, (m: Message) => InThread(m, taskId, u1, u2))
  {
    var p := (m: Message) => InThread(m, taskId, u1, u2);
    Seqs.FilterKeepsSorted(db.messages, p, CreatedAt);
    Seqs.SortBySorted(Seqs.Filter(db.messages, p), CreatedAt);
  }

  /** The member of the pair that is not `user`. */
  function OtherUser(c: Conversation, user: string): string {
    if c.user1 == user then c.user2 else c.user1
  }

  predicate Involves(c: Conversation, user: string) {
    c.user1 == user || c.user2 == user
  }

  function NegLastMessageAt(c: Conversation): int {
    -c.lastMessageAt
  }

  /** One row of the inbox: the conversation and the other participant. */
  datatype Summary = Summary(conversation: Conversation, otherUserId: string)

  /** `getUserConversations`: the user's conversations, most recently active first. */
  function GetUserConversations(db: Db, user: string): (r: seq<Summary>)
    ensures forall i :: 0 <= i < |r| ==>
      && r[i].conversation in db.conversations && Involves(r[i].conversation, user)
      && (r[i].conversation.user1 == user ==> r[i].otherUserId == r[i].conversation.user2)
      && (r[i].conversation.user1 != user ==> r[i].otherUserId == r[i].conversation.user1)
    ensures forall i :: 0 <= i < |db.conversations| && Involves(db.conversations[i], user) ==>
      exists j :: 0 <= j < |r| && r[j].conversation == db.conversations[i]
    ensures forall i, j :: 0 <= i < j < |r| ==> r[i].conversation.lastMessageAt >= r[j].conversation.lastMessageAt
    ensures multiset(Rows(r)) == multiset(Seqs.Filter(db.conversations, (c: Conversation) => Involves(c, user)))
  {
    var rows := InboxRows(db.conversations, user);
    InboxRowsExact(db.conversations, user);
    var r := Project(rows, user);
    assert Rows(r) == rows;
    r
  }

  /** The conversation column of the inbox. */
  function Rows(r: seq<Summary>): seq<Conversation> {
    seq(|r|, i requires 0 <= i < |r| => r[i].conversation)
  }

  /** The `CASE` column: each row paired with the participant other than `user`. */
  function Project(rows: seq<Conversation>, user: string): (r: seq<Summary>)
    ensures |r| == |rows|
    ensures forall i :: 0 <= i < |r| ==> r[i].conversation == rows[i] && r[i].otherUserId == OtherUser(rows[i], user)
  {
    seq(|rows|, i requires 0 <= i < |rows| => Summary(rows[i], OtherUser(rows[i], user)))
  }

  /** The conversation rows of the inbox query, before the projection: most recent first. */
  function InboxRows(cs: seq<Conversation>, user: string): (rows: seq<Conversation>)
    ensures forall i, j :: 0 <= i < j < |rows| ==> rows[i].lastMessageAt >= rows[j].lastMessageAt
    ensures multiset(rows) == multiset(Seqs.Filter(cs, (c: Conversation) => Involves(c, user)))
  {
    var rows := Seqs.SortBy(Seqs.Filter(cs, (c: Conversation) => Involves(c, user)), NegLastMessageAt);
    assert forall i, j :: 0 <= i < j < |rows| ==> NegLastMessageAt(rows[i]) <= NegLastMessageAt(rows[j]);
    rows
  }

  /** The inbox rows are exactly the user's conversations. */
  lemma InboxRowsExact(cs: seq<Conversation>, user: string)
    ensures var rows := InboxRows(cs, user);
      && (forall i :: 0 <= i < |rows| ==> rows[i] in cs && Involves(rows[i], user))
      && (forall i :: 0 <= i < |cs| && Involves(cs[i], user) ==> exists j :: 0 <= j < |rows| && rows[j] == cs[i])
      && |rows| == |Seqs.Filter(cs, (c: Conversation) => Involves(c, user))|
  {
    var mine := Seqs.Filter(cs, (c: Conversation) => Involves(c, user));
    var rows := InboxRows(cs, user);
    Seqs.PermutationMembers(rows, mine);
    InboxCoversAll(cs, mine, rows, user);
  }

  lemma InboxCoversAll(cs: seq<Conversation>, mine: seq<Conversation>, rows: seq<Conversation>, user: string)
    requires forall i :: 0 <= i < |cs| && Involves(cs[i], user) ==> cs[i] in mine
    requires forall i :: 0 <= i < |mine| ==> mine[i] in rows
    ensures forall i :: 0 <= i < |cs| && Involves(cs[i], user) ==> exists j :: 0 <= j < |rows| && rows[j] == cs[i]
  {
    forall i | 0 <= i < |cs| && Involves(cs[i], user)
      ensures exists j :: 0 <= j < |rows| && rows[j] == cs[i]
    {
      var k :| 0 <= k < |mine| && mine[k] == cs[i];
      assert mine[k] in rows;
    }
  }

  // ---------------------------------------------------------------------
  // Read state

  /** Sets `read_at := now` on every message `p` selects, leaving the rest alone. */
  function MarkWhere(ms: seq<Message>, p: Message -> bool, now: int): (r: seq<Message>)
    ensures |r| == |ms|
    ensures forall i :: 0 <= i < |ms| ==> r[i] == (if p(ms[i]) then ms[i].(readAt := Some(now)) else ms[i])
  {
    seq(|ms|, i requires 0 <= i < |ms| => if p(ms[i]) then ms[i].(readAt := Some(now)) else ms[i])
  }

  /** The rows `RETURNING *` yields: the selected rows, after the update. */
  function Returning(ms: seq<Message>, p: Message -> bool, now: int): seq<Message> {
    if |ms| == 0 then []
    else (if p(ms[0]) then [ms[0].(readAt := Some(now))] else []) + Returning(ms[1..], p, now)
  }

  /** The rows as they read after `SET read_at = now`. */
  function Stamp(ms: seq<Message>, now: int): seq<Message> {
    seq(|ms|, i requires 0 <= i < |ms| => ms[i].(readAt := Some(now)))
  }

  /** `RETURNING *` yields exactly the selected rows, in table order, each as updated. */
  lemma {:induction false} ReturningIsStampedFilter(ms: seq<Message>, p: Message -> bool, now: int)
    ensures Returning(ms, p, now) == Stamp(Seqs.Filter(ms, p), now)
  {
    if |ms| > 0 {
      ReturningIsStampedFilter(ms[1..], p, now);
      var tail := Seqs.Filter(ms[1..], p);
      if p(ms[0]) {
        assert Seqs.Filter(ms, p) == [ms[0]] + tail;
        assert Returning(ms, p, now) == [ms[0].(readAt := Some(now))] + Returning(ms[1..], p, now);
        StampCons(ms[0], tail, now);
      } else {
        assert Seqs.Filter(ms, p) == tail;
        assert Returning(ms, p, now) == Returning(ms[1..], p, now);
      }
    }
  }

  lemma StampCons(m: Message, tail: seq<Message>, now: int)
    ensures Stamp([m] + tail, now) == [m.(readAt := Some(now))] + Stamp(tail, now)
  {
  }

  /** The first returned row is the first selected row of the table, as updated. */
  lemma {:induction false} ReturningFirst(ms: seq<Message>, p: Message -> bool, now: int)
    ensures |Returning(ms, p, now)| > 0 ==>
      exists i :: 0 <= i < |ms| && p(ms[i]) && (forall j :: 0 <= j < i ==> !p(ms[j]))
        && Returning(ms, p, now)[0] == ms[i].(readAt := Some(now))
  {
    if |ms| > 0 && !p(ms[0]) && |Returning(ms, p, now)| > 0 {
      assert Returning(ms, p, now) == Returning(ms[1..], p, now);
      ReturningFirst(ms[1..], p, now);
      var i :| 0 <= i < |ms[1..]| && p(ms[1..][i]) && (forall j :: 0 <= j < i ==> !p(ms[1..][j]))
        && Returning(ms[1..], p, now)[0] == ms[1..][i].(readAt := Some(now));
      assert ms[i + 1] == ms[1..][i];
      assert forall j :: 0 < j < i + 1 ==> ms[j] == ms[1..][j - 1];
    }
  }

  predicate UnreadFor(m: Message, messageId: string, userId: string) {
    m.id == messageId && m.receiverId == userId && m.readAt.None?
  }

  /**
   * `markMessageAsRead`: stamps the message only when the caller is its
   * receiver and it is still unread; returns the updated row, if any.
   */
  function MarkMessageAsRead(db: Db, messageId: string, userId: string, now: int): (r: (Option<Message>, Db))
    ensures r.1.conversations == db.conversations
    ensures |r.1.messages| == |db.messages|
    ensures forall i :: 0 <= i < |db.messages| ==>
      r.1.messages[i] == (if UnreadFor(db.messages[i], messageId, userId) then db.messages[i].(readAt := Some(now)) else db.messages[i])
    ensures r.0.Some? ==> r.0.value.id == messageId && r.0.value.receiverId == userId && r.0.value.readAt == Some(now)
    ensures r.0.None? <==> forall i :: 0 <= i < |db.messages| ==> !UnreadFor(db.messages[i], messageId, userId)
    ensures r.0.Some? ==>
      exists i :: 0 <= i < |db.messages| && UnreadFor(db.messages[i], messageId, userId)
        && (forall j :: 0 <= j < i ==> !UnreadFor(db.messages[j], messageId, userId))
        && r.0 == Some(r.1.messages[i])
  {
    var p := (m: Message) => UnreadFor(m, messageId, userId);
    var returned := Returning(db.messages, p, now);
    ReturningSpec(db.messages, p, now);
    ReturningFirst(db.messages, p, now);
    (if |returned| == 0 then None else Some(returned[0]), Db(MarkWhere(db.messages, p, now), db.conversations))
  }

  lemma {:induction false} ReturningSpec(ms: seq<Message>, p: Message -> bool, now: int)
    ensures |Returning(ms, p, now)| == 0 <==> forall i :: 0 <= i < |ms| ==> !p(ms[i])
    ensures forall i :: 0 <= i < |Returning(ms, p, now)| ==>
      exists j :: 0 <= j < |ms| && p(ms[j]) && Returning(ms, p, now)[i] == ms[j].(readAt := Some(now))
  {
    if |ms| > 0 {
      ReturningSpec(ms[1..], p, now);
      var rest := Returning(ms[1..], p, now);
      forall i | 0 <= i < |rest|
        ensures exists j :: 0 <= j < |ms| && p(ms[j]) && rest[i] == ms[j].(readAt := Some(now))
      {
        var j :| 0 <= j < |ms[1..]| && p(ms[1..][j]) && rest[i] == ms[1..][j].(readAt := Some(now));
        assert ms[j + 1] == ms[1..][j];
      }
    }
  }

  predicate UnreadFrom(m: Message, taskId: string, userId: string, otherUserId: string) {
    m.taskId == taskId && m.senderId == otherUserId && m.receiverId == userId && m.readAt.None?
  }

  /**
   * `markConversationAsRead`: stamps the unread messages of the task that
   * `otherUserId` sent to `userId`; returns the updated rows.
   */
  function MarkConversationAsRead(db: Db, taskId: string, userId: string, otherUserId: string, now: int): (r: (seq<Message>, Db))
    ensures r.1.conversations == db.conversations
    ensures |r.1.messages| == |db.messages|
    ensures forall i :: 0 <= i < |db.messages| ==>
      r.1.messages[i] == (if UnreadFrom(db.messages[i], taskId, userId, otherUserId) then db.messages[i].(readAt := Some(now)) else db.messages[i])
    ensures |r.0| == 0 <==> forall i :: 0 <= i < |db.messages| ==> !UnreadFrom(db.messages[i], taskId, userId, otherUserId)
    ensures forall i :: 0 <= i < |r.0| ==>
      r.0[i].taskId == taskId && r.0[i].senderId == otherUserId && r.0[i].receiverId == userId && r.0[i].readAt == Some(now)
    ensures r.0 == Stamp(Seqs.Filter(db.messages, (m: Message) => UnreadFrom(m, taskId, userId, otherUserId)), now)
  {
    var p := (m: Message) => UnreadFrom(m, taskId, userId, otherUserId);
    ReturningSpec(db.messages, p, now);
    ReturningIsStampedFilter(db.messages, p, now);
    (Returning(db.messages, p, now), Db(MarkWhere(db.messages, p, now), db.conversations))
  }

  /** A second `markConversationAsRead`, at any time, updates nothing. */
  lemma MarkConversationAsReadIdempotent(db: Db, taskId: string, userId: string, otherUserId: string, now: int, later: int)
    ensures var once := MarkConversationAsRead(db, taskId, userId, otherUserId, now).1;
      var twice := MarkConversationAsRead(once, taskId, userId, otherUserId, later);
      |twice.0| == 0 && twice.1 == once
  {
    var once := MarkConversationAsRead(db, taskId, userId, otherUserId, now).1;
    var twice := MarkConversationAsRead(once, taskId, userId, otherUserId, later);
    assert twice.1.messages == once.messages;
  }

  /** Read state only moves from null to a time: a set `read_at` is never changed. */
  lemma ReadAtIsSetOnce(db: Db, messageId: string, userId: string, taskId: string, otherUserId: string, now: int)
    ensures var after := MarkMessageAsRead(db, messageId, userId, now).1;
      forall i :: 0 <= i < |db.messages| && db.messages[i].readAt.Some? ==> after.messages[i] == db.messages[i]
    ensures var after := MarkConversationAsRead(db, taskId, userId, otherUserId, now).1;
      forall i :: 0 <= i < |db.messages| && db.messages[i].readAt.Some? ==> after.messages[i] == db.messages[i]
  {
  }
}

=== FILE: seqs.dfy ===
/**
 * The two query shapes the SQL statements use, over a table held as a
 * sequence of rows: `WHERE p` (keep the rows satisfying `p`, in table order)
 * and `ORDER BY key` (a stable sort, so rows with equal keys keep table order).
 */
module Seqs {

  /** Rows of `s` that satisfy `p`, in their original order. */
  function Filter<T>(s: seq<T>, p: T -> bool): (r: seq<T>)
    ensures |r| <= |s|
    ensures forall i :: 0 <= i < |r| ==> r[i] in s && p(r[i])
    ensures forall i :: 0 <= i < |s| && p(s[i]) ==> s[i] in r
    ensures multiset(r) <= multiset(s)
  {
    if |s| == 0 then []
    else
      assert s == [s[0]] + s[1..];
      if p(s[0]) then [s[0]] + Filter(s[1..], p) else Filter(s[1..], p)
  }

  /** Filtering a concatenation filters each part. */
  lemma {:induction false} FilterAppend<T>(a: seq<T>, b: seq<T>, p: T -> bool)
    ensures Filter(a + b, p) == Filter(a, p) + Filter(b, p)
  {
    if |a| == 0 {
      assert a + b == b;
    } else {
      assert (a + b)[0] == a[0] && (a + b)[1..] == a[1..] + b;
      FilterAppend(a[1..], b, p);
    }
  }

  /** `WHERE p` keeps every copy of a row that satisfies `p` and no copy of one that does not. */
  lemma {:induction false} FilterCount<T>(s: seq<T>, p: T -> bool, x: T)
    ensures multiset(Filter(s, p))[x] == if p(x) then multiset(s)[x] else 0
  {
    if |s| > 0 {
      assert s == [s[0]] + s[1..];
      assert multiset(s) == multiset{s[0]} + multiset(s[1..]);
      FilterCount(s[1..], p, x);
    }
  }

  /** Two predicates that agree on every row select the same rows. */
  lemma {:induction false} FilterExtensional<T>(s: seq<T>, p: T -> bool, q: T -> bool)
    requires forall i :: 0 <= i < |s| ==> p(s[i]) == q(s[i])
    ensures Filter(s, p) == Filter(s, q)
  {
    if |s| > 0 {
      FilterExtensional(s[1..], p, q);
    }
  }

  ghost predicate SortedBy<T>(s: seq<T>, key: T -> int) {
    forall i, j :: 0 <= i < j < |s| ==> key(s[i]) <= key(s[j])
  }

  /** Inserts `x` before the first element whose key is not smaller. */
  function Insert<T>(x: T, s: seq<T>, key: T -> int): (r: seq<T>)
    requires SortedBy(s, key)
    ensures SortedBy(r, key)
    ensures multiset(r) == multiset(s) + multiset{x}
  {
    if |s| == 0 then [x]
    else if key(x) <= key(s[0]) then [x] + s
    else
      var t := Insert(x, s[1..], key);
      assert multiset(s) == multiset{s[0]} + multiset(s[1..]) by {
        assert s == [s[0]] + s[1..];
      }
      assert forall i :: 0 <= i < |t| ==> key(s[0]) <= key(t[i]) by {
        forall i | 0 <= i < |t|
          ensures key(s[0]) <= key(t[i])
        {
          assert t[i] in multiset(t);
          assert t[i] in multiset(s[1..]) || t[i] == x;
        }
      }
      [s[0]] + t
  }

  /** `ORDER BY key ASC`, stable. */
  function SortBy<T>(s: seq<T>, key: T -> int): (r: seq<T>)
    ensures SortedBy(r, key)
    ensures multiset(r) == multiset(s)
  {
    if |s| == 0 then []
    else
      assert s == [s[0]] + s[1..];
      Insert(s[0], SortBy(s[1..], key), key)
  }

  /** A table already in key order comes back unchanged. */
  lemma {:induction false} SortBySorted<T>(s: seq<T>, key: T -> int)
    requires SortedBy(s, key)
    ensures SortBy(s, key) == s
  {
    if |s| > 0 {
      SortBySorted(s[1..], key);
      assert SortBy(s[1..], key) == s[1..];
      assert s == [s[0]] + s[1..];
    }
  }

  /** Two orderings of the same rows have the same members. */
  lemma PermutationMembers<T>(a: seq<T>, b: seq<T>)
    requires multiset(a) == multiset(b)
    ensures |a| == |b|
    ensures forall i :: 0 <= i < |a| ==> a[i] in b
    ensures forall i :: 0 <= i < |b| ==> b[i] in a
  {
    assert |multiset(a)| == |multiset(b)|;
    forall i | 0 <= i < |a|
      ensures a[i] in b
    {
      assert a[i] in multiset(a);
    }
    forall i | 0 <= i < |b|
      ensures b[i] in a
    {
      assert b[i] in multiset(b);
    }
  }

  /** Filtering a table that is in key order keeps it in key order. */
  lemma {:induction false} FilterKeepsSorted<T>(s: seq<T>, p: T -> bool, key: T -> int)
    requires SortedBy(s, key)
    ensures SortedBy(Filter(s, p), key)
  {
    if |s| > 0 {
      FilterKeepsSorted(s[1..], p, key);
      var t := Filter(s[1..], p);
      forall i | 0 <= i < |t|
        ensures key(s[0]) <= key(t[i])
      {
        var j :| 0 <= j < |s[1..]| && s[1..][j] == t[i];
        assert s[j + 1] == t[i];
      }
    }
  }
}

=== FILE: sessions.dfy ===
/**
 * The in-memory session registry of the server's session service: a map
 * from session id to the stored user row and an absolute expiry time in
 * milliseconds, with sliding expiry on lookup and a periodic sweep.
 *
 * The signed cookie is modelled by what verifying its signature yields:
 * `Some(id)` for a validly signed `session-id` cookie, `None` when the
 * cookie is absent or its signature does not verify.
 */
module Sessions {
  import opened Wrappers
  import Text
  import Users

  const WeekInMilliseconds: int := 604800000
  const CookieName: string := "session-id"

  datatype Session = Session(user: Users.User, expiresAt: int)

  type Store = map<string, Session>

  /** The attributes `setSignedCookie` is given. `maxAge` is in seconds. */
  datatype Cookie = Cookie(name: string, value: string, path: string, httpOnly: bool, sameSite: string, maxAge: int)

  /** An entry is expired once the clock has passed its expiry time. */
  predicate Expired(s: Session, now: int) {
    s.expiresAt < now
  }

  /**
   * `createSession`: stores the user under the fresh id `sid` for one week
   * and sets a cookie that lives one week.
   */
  function CreateSession(store: Store, user: Users.User, sid: string, now: int): (r: (Cookie, Store))
    ensures r.0.name == CookieName && r.0.value == sid && r.0.path == "/"
    ensures r.0.httpOnly && r.0.sameSite == "lax" && r.0.maxAge * 1000 == WeekInMilliseconds
    ensures r.1.Keys == store.Keys + {sid}
    ensures r.1[sid].user == user && r.1[sid].expiresAt == now + WeekInMilliseconds
    ensures forall k :: k in store && k != sid ==> r.1[k] == store[k]
  {
    var cookie := Cookie(CookieName, sid, "/", true, "lax", WeekInMilliseconds / 1000);
    (cookie, store[sid := Session(user, now + WeekInMilliseconds)])
  }

  /**
   * `getUserFromSession` on the in-memory path. An expired entry is deleted
   * and yields null; a live one is extended to one week from `now` and its
   * user returned. The key-value fallback is taken to be unavailable, so an
   * unknown id also yields null.
   */
  function GetUserFromSession(store: Store, cookie: Option<string>, now: int): (r: (Option<Users.User>, Store))
    ensures !Text.Truthy(cookie) ==> r == (None, store)
    ensures Text.Truthy(cookie) && cookie.value !in store ==> r == (None, store)
    ensures Text.Truthy(cookie) && cookie.value in store && Expired(store[cookie.value], now) ==>
      r.0.None? && r.1 == store - {cookie.value}
    ensures Text.Truthy(cookie) && cookie.value in store && !Expired(store[cookie.value], now) ==>
      && r.0 == Some(store[cookie.value].user)
      && r.1.Keys == store.Keys
      && r.1[cookie.value] == Session(store[cookie.value].user, now + WeekInMilliseconds)
    ensures forall k :: k in r.1 && !(Text.Truthy(cookie) && k == cookie.value) ==> k in store && r.1[k] == store[k]
  {
    if !Text.Truthy(cookie) then (None, store)
    else
      var sid := cookie.value;
      if sid !in store then (None, store)
      else if Expired(store[sid], now) then (None, store - {sid})
      else (Some(store[sid].user), store[sid := store[sid].(expiresAt := now + WeekInMilliseconds)])
  }

  /** The body of the periodic clean-up: drop every entry that has expired. */
  function Sweep(store: Store, now: int): (r: Store)
    ensures forall k :: k in r <==> k in store && !Expired(store[k], now)
    ensures forall k :: k in r ==> r[k] == store[k]
  {
    map k | k in store && !Expired(store[k], now) :: store[k]
  }

  /** `deleteSession`: removes the entry for the cookie's id; without a cookie, nothing. */
  function DeleteSession(store: Store, cookie: Option<string>): (r: Store)
    ensures Text.Truthy(cookie) ==> r.Keys == store.Keys - {cookie.value}
    ensures !Text.Truthy(cookie) ==> r == store
    ensures forall k :: k in r ==> r[k] == store[k]
  {
    if Text.Truthy(cookie) then store - {cookie.value} else store
  }

  // ---------------------------------------------------------------------
  // Properties across calls

  /** A lookup right after login returns the same user. */
  lemma CreateThenResolve(store: Store, user: Users.User, sid: string, now: int, later: int)
    requires |sid| > 0
    requires now <= later <= now + WeekInMilliseconds
    ensures GetUserFromSession(CreateSession(store, user, sid, now).1, Some(sid), later).0 == Some(user)
  {
  }

  /** Without any lookup, a session is gone once a week has passed. */
  lemma ExpiresAfterInactivity(store: Store, user: Users.User, sid: string, now: int, later: int)
    requires |sid| > 0
    requires later > now + WeekInMilliseconds
    ensures var after := GetUserFromSession(CreateSession(store, user, sid, now).1, Some(sid), later);
      after.0.None? && sid !in after.1
  {
  }

  /** Lookups at the given times, in order, each returning a user or null. */
  function ResolveAll(store: Store, sid: string, times: seq<int>): (r: (seq<Option<Users.User>>, Store))
    ensures |r.0| == |times|
  {
    if |times| == 0 then ([], store)
    else
      var first := GetUserFromSession(store, Some(sid), times[0]);
      var rest := ResolveAll(first.1, sid, times[1..]);
      ([first.0] + rest.0, rest.1)
  }

  /** Consecutive times at most `gap` apart, starting no later than `start + gap`. */
  predicate SpacedWithin(start: int, times: seq<int>, gap: int) {
    && (|times| > 0 ==> start <= times[0] <= start + gap)
    && forall i :: 0 < i < |times| ==> times[i - 1] <= times[i] <= times[i - 1] + gap
  }

  /**
   * Sliding expiry: a session looked up at least once a week stays alive
   * indefinitely, and every lookup returns the user stored at login.
   */
  lemma {:induction false} SlidingExpiryKeepsAlive(store: Store, sid: string, user: Users.User, last: int, times: seq<int>)
    requires |sid| > 0
    requires sid in store && store[sid] == Session(user, last + WeekInMilliseconds)
    requires SpacedWithin(last, times, WeekInMilliseconds)
    ensures forall i :: 0 <= i < |times| ==> ResolveAll(store, sid, times).0[i] == Some(user)
    decreases |times|
  {
    if |times| > 0 {
      assert last <= times[0] <= last + WeekInMilliseconds;
      var first := GetUserFromSession(store, Some(sid), times[0]);
      assert first.0 == Some(user);
      assert first.1[sid] == Session(user, times[0] + WeekInMilliseconds);
      assert SpacedWithin(times[0], times[1..], WeekInMilliseconds) by {
        if |times| > 1 {
          assert times[1..][0] == times[1];
        }
        forall i | 0 < i < |times[1..]|
          ensures times[1..][i - 1] <= times[1..][i] <= times[1..][i - 1] + WeekInMilliseconds
        {
          assert times[1..][i] == times[i + 1] && times[1..][i - 1] == times[i];
        }
      }
      SlidingExpiryKeepsAlive(first.1, sid, user, times[0], times[1..]);
    }
  }

  /**
   * The sweep is unobservable through lookups: looking up after a sweep at
   * an earlier or equal time returns what the lookup alone would return.
   */
  lemma SweepThenResolve(store: Store, cookie: Option<string>, sweptAt: int, now: int)
    requires sweptAt <= now
    ensures GetUserFromSession(Sweep(store, sweptAt), cookie, now).0 == GetUserFromSession(store, cookie, now).0
  {
  }

  /** Sweeping twice at the same time is sweeping once. */
  lemma SweepIdempotent(store: Store, now: int)
    ensures Sweep(Sweep(store, now), now) == Sweep(store, now)
  {
  }

  /** Deleting a session leaves every other cookie resolving as it did. */
  lemma DeleteThenResolve(store: Store, cookie: Option<string>, other: Option<string>, now: int)
    ensures GetUserFromSession(DeleteSession(store, cookie), cookie, now).0.None?
    ensures !(Text.Truthy(cookie) && other == cookie) ==>
      GetUserFromSession(DeleteSession(store, cookie), other, now).0 == GetUserFromSession(store, other, now).0
  {
  }

  /** Deleting twice is deleting once, and the session no longer resolves. */
  lemma DeleteSessionIdempotent(store: Store, cookie: Option<string>, now: int)
    ensures DeleteSession(DeleteSession(store, cookie), cookie) == DeleteSession(store, cookie)
    ensures GetUserFromSession(DeleteSession(store, cookie), cookie, now).0.None?
  {
  }
}

=== FILE: task_server.dfy ===
/**
 * The demonstration task server: an in-memory task list seeded with six
 * tasks, and the list/get/create/update/delete routes over it. `nowIso`
 * is the `new Date().toISOString()` value of the request.
 */
module TaskServer {
  import opened Wrappers
  import Text
  import Decimal

  datatype Task = Task(id: string, name: string, description: string, time: string, completed: bool)

  datatype Body =
    | TaskList(tasks: seq<Task>)
    | One(task: Task)
    | Error(error: string)
    | Message(message: string)

  datatype Reply = Reply(status: int, body: Body)

  const NotFound: Reply := Reply(404, Error("Task not found"))

  /** The mock data the list starts with. */
  const Seed: seq<Task> := [
    Task("1", "Package Pickup from A Bloc",
      "Need someone to pick up a package from the post office at A Bloc. The package is from Amazon and I can provide the tracking number.",
      "2025-01-15T10:30:00.000Z", false),
    Task("2", "Print Documents at Library",
      "Need 20 pages printed for my thesis. I have the PDF files ready and can send them via email.",
      "2025-01-15T14:15:00.000Z", false),
    Task("3", "Grocery Shopping at K-Citymarket",
      "Small grocery run to K-Citymarket Otaniemi. I have a shopping list and can provide payment.",
      "2025-01-14T16:45:00.000Z", true),
    Task("4", "Lend Calculator for Exam",
      "Need to borrow a scientific calculator for my math exam tomorrow. Will return it the same day.",
      "2025-01-14T09:20:00.000Z", false),
    Task("5", "Deliver Books to B Bloc",
      "Need someone to deliver 3 textbooks to a friend at B Bloc. Books are ready for pickup.",
      "2025-01-13T11:00:00.000Z", true),
    Task("6", "Help with Moving Boxes",
      "Need help carrying 5 boxes from my dorm to a friend's apartment. Should take about 30 minutes.",
      "2025-01-13T13:30:00.000Z", false)
  ]

  /** The ids in a list are pairwise different. */
  predicate DistinctIds(tasks: seq<Task>) {
    forall i, j :: 0 <= i < j < |tasks| ==> tasks[i].id != tasks[j].id
  }

  /** The seed holds six tasks with the distinct ids "1" to "6". */
  lemma SeedIds()
    ensures |Seed| == 6
    ensures forall i :: 0 <= i < |Seed| ==> Seed[i].id == Decimal.NatToString(i + 1)
    ensures DistinctIds(Seed)
  {
    forall i | 0 <= i < |Seed|
      ensures Seed[i].id == Decimal.NatToString(i + 1)
    {
    }
  }

  /** `tasks.findIndex(t => t.id === id)`, with `|tasks|` standing for -1. */
  function FindIndex(tasks: seq<Task>, id: string): (i: nat)
    ensures i <= |tasks|
    ensures i < |tasks| ==> tasks[i].id == id
    ensures forall j :: 0 <= j < i ==> tasks[j].id != id
  {
    if |tasks| == 0 then 0
    else if tasks[0].id == id then 0
    else 1 + FindIndex(tasks[1..], id)
  }

  /** `GET /tasks`: the list in its current order (creation puts new tasks in front). */
  function ListTasks(tasks: seq<Task>): (r: Reply)
    ensures r.status == 200 && r.body.TaskList?
    ensures r.body.tasks == tasks
  {
    Reply(200, TaskList(tasks))
  }

  /** `GET /tasks/:id`: the first task with that id, or 404. */
  function GetTask(tasks: seq<Task>, id: string): (r: Reply)
    ensures r == NotFound <==> forall j :: 0 <= j < |tasks| ==> tasks[j].id != id
    ensures r != NotFound ==>
      && r.status == 200 && r.body.One?
      && exists i :: 0 <= i < |tasks| && tasks[i] == r.body.task && r.body.task.id == id
           && forall j :: 0 <= j < i ==> tasks[j].id != id
  {
    var i := FindIndex(tasks, id);
    if i == |tasks| then NotFound else Reply(200, One(tasks[i]))
  }

  /**
   * `POST /tasks`: a task named and described is put in front, with an id
   * derived from the list length and `completed` false.
   */
  function CreateTask(tasks: seq<Task>, name: Option<string>, description: Option<string>, nowIso: string): (r: (Reply, seq<Task>))
    ensures !Text.Truthy(name) || !Text.Truthy(description) ==>
      r == (Reply(400, Error("Name and description are required")), tasks)
    ensures Text.Truthy(name) && Text.Truthy(description) ==>
      && r.0.status == 201 && r.0.body.One?
      && |r.1| == |tasks| + 1
      && r.1[0] == r.0.body.task
      && r.1[1..] == tasks
      && r.1[0].id == Decimal.NatToString(|tasks| + 1)
      && r.1[0].name == name.value && r.1[0].description == description.value
      && r.1[0].time == nowIso && !r.1[0].completed
  {
    if !Text.Truthy(name) || !Text.Truthy(description) then (Reply(400, Error("Name and description are required")), tasks)
    else
      var t := Task(Decimal.NatToString(|tasks| + 1), name.value, description.value, nowIso, false);
      (Reply(201, One(t)), [t] + tasks)
  }

  /**
   * `POST /tasks/:id`: replaces name and description only by truthy new
   * values, stamps the time, keeps id and completion, touches nothing else.
   */
  function UpdateTask(tasks: seq<Task>, id: string, name: Option<string>, description: Option<string>, nowIso: string): (r: (Reply, seq<Task>))
    ensures r.0 == NotFound <==> forall j :: 0 <= j < |tasks| ==> tasks[j].id != id
    ensures (forall j :: 0 <= j < |tasks| ==> tasks[j].id != id) ==> r == (NotFound, tasks)
    ensures r.0 != NotFound ==>
      && var i := FindIndex(tasks, id);
      && i < |tasks|
      && |r.1| == |tasks|
      && (forall j :: 0 <= j < |tasks| && j != i ==> r.1[j] == tasks[j])
      && r.1[i].id == tasks[i].id && r.1[i].completed == tasks[i].completed
      && r.1[i].name == (if Text.Truthy(name) then name.value else tasks[i].name)
      && r.1[i].description == (if Text.Truthy(description) then description.value else tasks[i].description)
      && r.1[i].time == nowIso
      && r.0 == Reply(200, One(r.1[i]))
  {
    var i := FindIndex(tasks, id);
    if i == |tasks| then (NotFound, tasks)
    else
      var prev := tasks[i];
      var t := prev.(
        name := if Text.Truthy(name) then name.value else prev.name,
        description := if Text.Truthy(description) then description.value else prev.description,
        time := nowIso);
      (Reply(200, One(t)), tasks[i := t])
  }

  /** `POST /tasks/:id/delete`: removes the first task with that id; the rest keep their order. */
  function DeleteTask(tasks: seq<Task>, id: string): (r: (Reply, seq<Task>))
    ensures r.0 == NotFound <==> forall j :: 0 <= j < |tasks| ==> tasks[j].id != id
    ensures (forall j :: 0 <= j < |tasks| ==> tasks[j].id != id) ==> r == (NotFound, tasks)
    ensures r.0 != NotFound ==>
      && var i := FindIndex(tasks, id);
      && i < |tasks| && tasks[i].id == id
      && r.0 == Reply(200, Message("Task deleted successfully"))
      && |r.1| == |tasks| - 1
      && (forall j :: 0 <= j < i ==> r.1[j] == tasks[j])
      && (forall j :: i <= j < |r.1| ==> r.1[j] == tasks[j + 1])
      && multiset(r.1) + multiset{tasks[i]} == multiset(tasks)
  {
    var i := FindIndex(tasks, id);
    if i == |tasks| then (NotFound, tasks)
    else
      assert tasks == tasks[..i] + [tasks[i]] + tasks[i + 1..];
      (Reply(200, Message("Task deleted successfully")), tasks[..i] + tasks[i + 1..])
  }

  /** A created task heads the list and is what a lookup of its id returns. */
  lemma CreateThenGet(tasks: seq<Task>, name: Option<string>, description: Option<string>, nowIso: string)
    requires Text.Truthy(name) && Text.Truthy(description)
    ensures var r := CreateTask(tasks, name, description, nowIso);
      && ListTasks(r.1).body.tasks == [r.0.body.task] + tasks
      && GetTask(r.1, r.0.body.task.id) == Reply(200, One(r.0.body.task))
  {
    var r := CreateTask(tasks, name, description, nowIso);
    assert FindIndex(r.1, r.0.body.task.id) == 0;
  }

  /** Two creations in a row, with nothing deleted in between, hand out different ids. */
  lemma CreateTwiceDistinctIds(tasks: seq<Task>, name: Option<string>, description: Option<string>, t1: string, t2: string)
    requires Text.Truthy(name) && Text.Truthy(description)
    ensures var first := CreateTask(tasks, name, description, t1);
      var second := CreateTask(first.1, name, description, t2);
      second.0.body.task.id != first.0.body.task.id
  {
    Decimal.NatToStringInjective(|tasks| + 1, |tasks| + 2);
  }

  /** An update keeps every id in its place, and a lookup then returns the updated task. */
  lemma UpdateThenGet(tasks: seq<Task>, id: string, name: Option<string>, description: Option<string>, nowIso: string)
    requires exists j :: 0 <= j < |tasks| && tasks[j].id == id
    ensures var r := UpdateTask(tasks, id, name, description, nowIso);
      && |r.1| == |tasks|
      && (forall j :: 0 <= j < |tasks| ==> r.1[j].id == tasks[j].id)
      && GetTask(r.1, id) == r.0
  {
    var r := UpdateTask(tasks, id, name, description, nowIso);
    var i := FindIndex(tasks, id);
    assert forall j :: 0 <= j < |tasks| ==> r.1[j].id == tasks[j].id;
    FindIndexSameIds(tasks, r.1, id);
  }

  /** Lists with the same ids in the same places find an id at the same index. */
  lemma {:induction false} FindIndexSameIds(a: seq<Task>, b: seq<Task>, id: string)
    requires |a| == |b| && forall j :: 0 <= j < |a| ==> a[j].id == b[j].id
    ensures FindIndex(a, id) == FindIndex(b, id)
  {
    if |a| > 0 && a[0].id != id {
      FindIndexSameIds(a[1..], b[1..], id);
    }
  }

  /** With distinct ids, a deleted task can no longer be looked up, and the ids stay distinct. */
  lemma DeleteThenGet(tasks: seq<Task>, id: string)
    requires DistinctIds(tasks)
    ensures var r := DeleteTask(tasks, id).1;
      && GetTask(r, id) == NotFound
      && DistinctIds(r)
  {
    var r := DeleteTask(tasks, id).1;
    var i := FindIndex(tasks, id);
    if i < |tasks| {
      forall j | 0 <= j < |r|
        ensures r[j].id != id
      {
        if j < i {
          assert r[j] == tasks[j];
        } else {
          assert r[j] == tasks[j + 1];
        }
      }
    }
  }

  /**
   * Ids come from the list length, so deleting the first seed task and
   * creating a new one hands out "6" a second time.
   */
  lemma IdCollisionAfterDelete(name: string, description: string, nowIso: string)
    requires |name| > 0 && |description| > 0
    ensures var afterDelete := DeleteTask(Seed, "1").1;
      var afterCreate := CreateTask(afterDelete, Some(name), Some(description), nowIso).1;
      && |afterCreate| == 6
      && afterCreate[0].id == "6" && afterCreate[5].id == "6"
      && !DistinctIds(afterCreate)
  {
    DeleteFirstSeedTask();
    assert Seed[1..][4] == Seed[5];
    CreateOnFiveTasks(Seed[1..], name, description, nowIso);
  }

  lemma DeleteFirstSeedTask()
    ensures DeleteTask(Seed, "1").1 == Seed[1..]
  {
    assert Seed[0].id == "1";
    assert FindIndex(Seed, "1") == 0;
  }

  lemma CreateOnFiveTasks(tasks: seq<Task>, name: string, description: string, nowIso: string)
    requires |name| > 0 && |description| > 0
    requires |tasks| == 5 && tasks[4].id == "6"
    ensures var r := CreateTask(tasks, Some(name), Some(description), nowIso).1;
      |r| == 6 && r[0].id == "6" && r[5].id == "6" && !DistinctIds(r)
  {
    var r := CreateTask(tasks, Some(name), Some(description), nowIso).1;
    assert Decimal.NatToString(6) == "6";
    assert r[5] == tasks[4];
  }
}

=== FILE: text.dfy ===
/**
 * The string primitives the handlers rely on: JavaScript's `trim`,
 * `toLowerCase`, `startsWith`/`endsWith`, the truthiness test `!s` on an
 * optional string, and the relational `<` on strings.
 */
module Text {
  import opened Wrappers

  /** The characters `String.prototype.trim` strips: the WhiteSpace and
      LineTerminator code points of ECMA-262 (sections 12.2 and 12.3). */
  predicate IsSpace(c: char) {
    || c == ' ' || c == '\t' || c == '\n' || c == '\r'
    || c == '\U{000B}' || c == '\U{000C}' || c == '\U{00A0}' || c == '\U{1680}'
    || ('\U{2000}' <= c <= '\U{200A}')
    || c == '\U{2028}' || c == '\U{2029}' || c == '\U{202F}' || c == '\U{205F}'
    || c == '\U{3000}' || c == '\U{FEFF}'
  }

  /** Removes leading white space. */
  function TrimStart(s: string): (r: string)
    ensures |r| <= |s| && r == s[|s| - |r|..]
    ensures forall i :: 0 <= i < |s| - |r| ==> IsSpace(s[i])
    ensures |r| > 0 ==> !IsSpace(r[0])
  {
    if |s| > 0 && IsSpace(s[0]) then TrimStart(s[1..]) else s
  }

  /** Removes trailing white space. */
  function TrimEnd(s: string): (r: string)
    ensures |r| <= |s| && r == s[..|r|]
    ensures forall i :: |r| <= i < |s| ==> IsSpace(s[i])
    ensures |r| > 0 ==> !IsSpace(r[|r| - 1])
  {
    if |s| > 0 && IsSpace(s[|s| - 1]) then TrimEnd(s[..|s| - 1]) else s
  }

  /** `s.trim()`: the longest slice of `s` that neither starts nor ends with white space. */
  function Trim(s: string): (r: string)
    ensures |r| <= |s|
    ensures |r| > 0 ==> !IsSpace(r[0]) && !IsSpace(r[|r| - 1])
  {
    TrimEnd(TrimStart(s))
  }

  /**
   * What `trim` removes: the result is the slice of `s` starting at some
   * `a`, and everything before `a` and after the slice is white space.
   */
  lemma TrimSpec(s: string)
    ensures exists a :: CutAt(s, a, Trim(s))
  {
    var t := TrimStart(s);
    var a := |s| - |t|;
    var r := Trim(s);
    assert r == t[..|r|];
    assert t[..|r|] == s[a..a + |r|];
    forall i | a + |r| <= i < |s|
      ensures IsSpace(s[i])
    {
      assert s[i] == t[i - a];
    }
    assert CutAt(s, a, r);
  }

  /** `r` is `s` with `a` white-space characters cut from the front and only white space cut from the back. */
  predicate CutAt(s: string, a: int, r: string) {
    0 <= a <= |s| - |r|
    && r == s[a..a + |r|]
    && (forall i :: 0 <= i < a ==> IsSpace(s[i]))
    && (forall i :: a + |r| <= i < |s| ==> IsSpace(s[i]))
  }

  predicate IsUpper(c: char) {
    'A' <= c <= 'Z'
  }

  /** Upper-case ASCII letters map to lower case; every other character is kept. */
  function LowerChar(c: char): char {
    if 'A' <= c <= 'Z' then (c as int + 32) as char else c
  }

  /** `s.toLowerCase()`, restricted to the ASCII letters. */
  function ToLower(s: string): (r: string)
    ensures |r| == |s|
    ensures forall i :: 0 <= i < |s| ==> r[i] == LowerChar(s[i])
    ensures forall i :: 0 <= i < |r| ==> !IsUpper(r[i])
    ensures forall i :: 0 <= i < |s| && !IsUpper(s[i]) ==> r[i] == s[i]
  {
    seq(|s|, i requires 0 <= i < |s| => LowerChar(s[i]))
  }

  /** `s.trim().toLowerCase()`: the key under which an e-mail address is stored. */
  function Normalize(s: string): string {
    ToLower(Trim(s))
  }

  /** A normalised string is no longer than the input, has no white space at either end and no upper-case letter. */
  lemma NormalizeShape(s: string)
    ensures var r := Normalize(s);
      && |r| <= |s|
      && (|r| > 0 ==> !IsSpace(r[0]) && !IsSpace(r[|r| - 1]))
      && (forall i :: 0 <= i < |r| ==> !IsUpper(r[i]))
  {
    var t := Trim(s);
    if |t| > 0 {
      LowerCharKeepsSpace(t[0]);
      LowerCharKeepsSpace(t[|t| - 1]);
    }
  }

  /** `s.startsWith(prefix)`. */
  predicate StartsWith(s: string, prefix: string) {
    |prefix| <= |s| && s[..|prefix|] == prefix
  }

  /** `s.endsWith(suffix)`. */
  predicate EndsWith(s: string, suffix: string) {
    |suffix| <= |s| && s[|s| - |suffix|..] == suffix
  }

  /** JavaScript truthiness of an optional string field: `undefined` and `""` are falsy. */
  predicate Truthy(o: Option<string>) {
    o.Some? && |o.value| > 0
  }

  /** The relational `a < b` on strings: lexicographic order of the characters,
      a proper prefix coming first. */
  predicate Less(a: string, b: string)
    ensures Less(a, b) ==> a != b
  {
    if |a| == 0 then |b| > 0
    else if |b| == 0 then false
    else if a[0] != b[0] then a[0] < b[0]
    else Less(a[1..], b[1..])
  }

  /** Lower-casing twice is lower-casing once. */
  lemma ToLowerIdempotent(s: string)
    ensures ToLower(ToLower(s)) == ToLower(s)
  {
  }

  /** Lower-casing never turns a non-space into a space or the other way round. */
  lemma LowerCharKeepsSpace(c: char)
    ensures IsSpace(LowerChar(c)) <==> IsSpace(c)
  {
  }

  /** Trimming an already trimmed string changes nothing. */
  lemma TrimOfTrimmed(s: string)
    requires |s| > 0 ==> !IsSpace(s[0]) && !IsSpace(s[|s| - 1])
    ensures Trim(s) == s
  {
  }

  /** Normalising twice is normalising once, so a stored key normalises to itself. */
  lemma NormalizeIdempotent(s: string)
    ensures Normalize(Normalize(s)) == Normalize(s)
  {
    var l := Normalize(s);
    NormalizeShape(s);
    TrimOfTrimmed(l);
    ToLowerIdempotent(Trim(s));
  }

  /** No string is less than itself. */
  lemma {:induction false} LessIrreflexive(a: string)
    ensures !Less(a, a)
  {
    if |a| > 0 {
      LessIrreflexive(a[1..]);
    }
  }

  /** `<` is asymmetric. */
  lemma {:induction false} LessAsymmetric(a: string, b: string)
    ensures Less(a, b) ==> !Less(b, a)
  {
    if |a| > 0 && |b| > 0 && a[0] == b[0] {
      LessAsymmetric(a[1..], b[1..]);
    }
  }

  /** Two different strings are always comparable. */
  lemma {:induction false} LessTotal(a: string, b: string)
    ensures a != b ==> Less(a, b) || Less(b, a)
  {
    if |a| > 0 && |b| > 0 && a[0] == b[0] {
      LessTotal(a[1..], b[1..]);
      if a != b {
        assert a == [a[0]] + a[1..] && b == [b[0]] + b[1..];
      }
    }
  }
}

=== FILE: users.dfy ===
/**
 * The credential store: the `users` table as a sequence of rows, the
 * case-insensitive lookups, the `readUser` projection, and the dynamic
 * `UPDATE` statement `updateUser` assembles from a sparse request body.
 */
module Users {
  import opened Wrappers
  import Text
  import Decimal
  import Seqs

  /** A row of the `users` table. Profile columns are nullable. */
  datatype User = User(
    id: string,
    username: string,
    email: string,
    passwordHash: string,
    name: Option<string>,
    avatarUrl: Option<string>,
    bio: Option<string>,
    address: Option<string>,
    phone: Option<string>)

  /** The columns `readUser` selects: every column but `password_hash`. */
  datatype Profile = Profile(
    id: string,
    username: string,
    email: string,
    name: Option<string>,
    avatarUrl: Option<string>,
    bio: Option<string>,
    address: Option<string>,
    phone: Option<string>)

  function ProfileOf(u: User): Profile {
    Profile(u.id, u.username, u.email, u.name, u.avatarUrl, u.bio, u.address, u.phone)
  }

  /** `createUser`: inserts a row with a fresh id and empty profile, and returns it. */
  function CreateUser(users: seq<User>, id: string, username: string, email: string, passwordHash: string): (r: (User, seq<User>))
    ensures r.1 == users + [r.0]
    ensures r.0.id == id && r.0.username == username && r.0.email == email && r.0.passwordHash == passwordHash
    ensures r.0.name.None? && r.0.avatarUrl.None? && r.0.bio.None? && r.0.address.None? && r.0.phone.None?
  {
    var u := User(id, username, email, passwordHash, None, None, None, None, None);
    (u, users + [u])
  }

  /** `WHERE LOWER(email) = LOWER(x)`: every matching row, as often as the table holds it, and nothing else. */
  function GetUserFromEmail(users: seq<User>, email: string): (r: seq<User>)
    ensures forall i :: 0 <= i < |r| ==> r[i] in users && Text.ToLower(r[i].email) == Text.ToLower(email)
    ensures forall i :: 0 <= i < |users| && Text.ToLower(users[i].email) == Text.ToLower(email) ==> users[i] in r
    ensures forall u :: multiset(r)[u] == if Text.ToLower(u.email) == Text.ToLower(email) then multiset(users)[u] else 0
  {
    var p := (u: User) => Text.ToLower(u.email) == Text.ToLower(email);
    assert forall u :: multiset(Seqs.Filter(users, p))[u] == if p(u) then multiset(users)[u] else 0 by {
      forall u ensures multiset(Seqs.Filter(users, p))[u] == if p(u) then multiset(users)[u] else 0 {
        Seqs.FilterCount(users, p, u);
      }
    }
    Seqs.Filter(users, p)
  }

  /** `WHERE LOWER(username) = LOWER(x)`: every matching row, as often as the table holds it, and nothing else. */
  function GetUserFromUsername(users: seq<User>, username: string): (r: seq<User>)
    ensures forall i :: 0 <= i < |r| ==> r[i] in users && Text.ToLower(r[i].username) == Text.ToLower(username)
    ensures forall i :: 0 <= i < |users| && Text.ToLower(users[i].username) == Text.ToLower(username) ==> users[i] in r
    ensures forall u :: multiset(r)[u] == if Text.ToLower(u.username) == Text.ToLower(username) then multiset(users)[u] else 0
  {
    var p := (u: User) => Text.ToLower(u.username) == Text.ToLower(username);
    assert forall u :: multiset(Seqs.Filter(users, p))[u] == if p(u) then multiset(users)[u] else 0 by {
      forall u ensures multiset(Seqs.Filter(users, p))[u] == if p(u) then multiset(users)[u] else 0 {
        Seqs.FilterCount(users, p, u);
      }
    }
    Seqs.Filter(users, p)
  }

  /** After appending a row whose address is the only one matching `key`, the lookup finds exactly that row. */
  lemma GetUserFromEmailAppend(users: seq<User>, u: User, key: string)
    requires Text.ToLower(u.email) == Text.ToLower(key)
    requires forall i :: 0 <= i < |users| ==> Text.ToLower(users[i].email) != Text.ToLower(key)
    ensures GetUserFromEmail(users + [u], key) == [u]
  {
    var p := (v: User) => Text.ToLower(v.email) == Text.ToLower(key);
    Seqs.FilterAppend(users, [u], p);
    var before := Seqs.Filter(users, p);
    assert |before| == 0;
    assert Seqs.Filter([u], p) == [u] by {
      assert [u][1..] == [];
    }
  }

  /** Two spellings of an address that differ only in letter case find the same rows. */
  lemma GetUserFromEmailIgnoresCase(users: seq<User>, a: string, b: string)
    requires Text.ToLower(a) == Text.ToLower(b)
    ensures GetUserFromEmail(users, a) == GetUserFromEmail(users, b)
  {
    Seqs.FilterExtensional(users,
      (u: User) => Text.ToLower(u.email) == Text.ToLower(a),
      (u: User) => Text.ToLower(u.email) == Text.ToLower(b));
  }

  /** Two spellings of a username that differ only in letter case find the same rows. */
  lemma GetUserFromUsernameIgnoresCase(users: seq<User>, a: string, b: string)
    requires Text.ToLower(a) == Text.ToLower(b)
    ensures GetUserFromUsername(users, a) == GetUserFromUsername(users, b)
  {
    Seqs.FilterExtensional(users,
      (u: User) => Text.ToLower(u.username) == Text.ToLower(a),
      (u: User) => Text.ToLower(u.username) == Text.ToLower(b));
  }

  /** `readUser`: the projection of the first row with that id, or null. */
  function ReadUser(users: seq<User>, id: string): (r: Option<Profile>)
    ensures r.None? <==> forall i :: 0 <= i < |users| ==> users[i].id != id
    ensures r.Some? ==> exists i :: 0 <= i < |users| && users[i].id == id && r.value == ProfileOf(users[i])
  {
    if |users| == 0 then None
    else if users[0].id == id then Some(ProfileOf(users[0]))
    else
      var r := ReadUser(users[1..], id);
      assert r.Some? ==> exists i :: 1 <= i < |users| && users[i].id == id && r.value == ProfileOf(users[i]) by {
        if r.Some? {
          var j :| 0 <= j < |users| - 1 && users[1..][j].id == id && r.value == ProfileOf(users[1..][j]);
          assert users[j + 1] == users[1..][j];
        }
      }
      r
  }

  /**
   * A row inserted under a fresh id reads back as its own profile, with
   * every profile column empty, and every other id reads as before.
   */
  lemma {:induction false} ReadAfterCreate(users: seq<User>, id: string, username: string, email: string, passwordHash: string, other: string)
    requires forall i :: 0 <= i < |users| ==> users[i].id != id
    ensures var (u, after) := CreateUser(users, id, username, email, passwordHash);
      && ReadUser(after, id) == Some(ProfileOf(u))
      && ReadUser(after, id).value.name.None?
      && (other != id ==> ReadUser(after, other) == ReadUser(users, other))
  {
    var (u, after) := CreateUser(users, id, username, email, passwordHash);
    ReadUserAppend(users, u, id);
    ReadUserAppend(users, u, other);
  }

  /** Appending a row changes only what its own id reads, and only if no earlier row had it. */
  lemma {:induction false} ReadUserAppend(users: seq<User>, u: User, id: string)
    ensures ReadUser(users + [u], id) == if ReadUser(users, id).Some? || u.id != id then ReadUser(users, id) else Some(ProfileOf(u))
  {
    if |users| > 0 {
      assert (users + [u])[1..] == users[1..] + [u];
      ReadUserAppend(users[1..], u, id);
    }
  }

  // ---------------------------------------------------------------------
  // updateUser

  /** A value bound to an `UPDATE` placeholder: JSON `null` or a string. */
  datatype Param = Null | Str(s: string)

  /** One field of the request body: absent (`undefined`) or given, possibly as `null` or `""`. */
  datatype Field = Undefined | Given(value: Param)

  /** The fields `updateUser` destructures from its argument. */
  datatype UserData = UserData(
    username: Field,
    email: Field,
    passwordHash: Field,
    name: Field,
    avatarUrl: Field,
    bio: Field,
    address: Field,
    phone: Field)

  /** The updatable columns, in the order the statement lists them. */
  const Columns: seq<string> := ["username", "email", "password_hash", "name", "avatar_url", "bio", "address", "phone"]

  function FieldsOf(d: UserData): (fs: seq<Field>)
    ensures |fs| == |Columns|
  {
    [d.username, d.email, d.passwordHash, d.name, d.avatarUrl, d.bio, d.address, d.phone]
  }

  /** The positions of the given fields, ascending: which columns the statement sets. */
  function GivenColumns(fs: seq<Field>): (idx: seq<nat>)
    ensures InRange(fs, idx)
  {
    if |fs| == 0 then []
    else
      var prefix := GivenColumns(fs[..|fs| - 1]);
      if fs[|fs| - 1].Given? then prefix + [|fs| - 1] else prefix
  }

  /** Every chosen position names a given field. */
  ghost predicate InRange(fs: seq<Field>, idx: seq<nat>) {
    forall k :: 0 <= k < |idx| ==> idx[k] < |fs| && fs[idx[k]].Given?
  }

  /** The chosen positions are ascending and miss no given field. */
  lemma {:induction false} GivenColumnsComplete(fs: seq<Field>)
    ensures var idx := GivenColumns(fs);
      && (forall k, l :: 0 <= k < l < |idx| ==> idx[k] < idx[l])
      && (forall j :: 0 <= j < |fs| && fs[j].Given? ==> j in idx)
  {
    if |fs| > 0 {
      var p := fs[..|fs| - 1];
      GivenColumnsComplete(p);
      forall j | 0 <= j < |p| && fs[j].Given?
        ensures p[j].Given?
      {
        assert p[j] == fs[j];
      }
    }
  }

  /** The placeholder `$k`. */
  function Placeholder(k: nat): string {
    "$" + Decimal.NatToString(k)
  }

  /** `updates.join(sep)`. */
  function Join(parts: seq<string>, sep: string): string {
    if |parts| == 0 then ""
    else if |parts| == 1 then parts[0]
    else Join(parts[..|parts| - 1], sep) + sep + parts[|parts| - 1]
  }

  /**
   * The `col = $k` fragments and the bound values, before the id is appended:
   * one fragment per given field in column order, the k-th (from 1) naming
   * placeholder `$k` and bound to `values[k-1]`.
   */
  method BuildUpdate(d: UserData) returns (updates: seq<string>, values: seq<Param>)
    ensures updates == Clauses(Columns, GivenColumns(FieldsOf(d)))
    ensures var idx := GivenColumns(FieldsOf(d));
      && |updates| == |idx| && |values| == |idx|
      && (forall k :: 0 <= k < |idx| ==> updates[k] == Columns[idx[k]] + " = " + Placeholder(k + 1))
      && (forall k :: 0 <= k < |idx| ==> values[k] == FieldsOf(d)[idx[k]].value)
  {
    updates, values := SetClauses(Columns, FieldsOf(d));
  }

  /** The loop behind `BuildUpdate`, over any list of columns paired with their fields. */
  method SetClauses(cols: seq<string>, fs: seq<Field>) returns (updates: seq<string>, values: seq<Param>)
    requires |cols| == |fs|
    ensures updates == Clauses(cols, GivenColumns(fs))
    ensures values == BoundValues(fs, GivenColumns(fs))
  {
    updates := [];
    values := [];
    ghost var idx: seq<nat> := [];
    var i := 0;
    while i < |fs|
      invariant 0 <= i <= |fs|
      invariant idx == GivenColumns(fs[..i])
      invariant InRange(fs, idx)
      invariant |values| == |idx|
      invariant updates == Clauses(cols, idx)
      invariant values == BoundValues(fs, idx)
    {
      SetClausesStep(cols, fs, idx, i);
      if fs[i].Given? {
        var fragment := cols[i] + " = " + Placeholder(|values| + 1);
        assert Clauses(cols, idx + [i]) == updates + [fragment];
        updates := updates + [fragment];
        values := values + [fs[i].value];
        idx := idx + [i];
      }
      i := i + 1;
    }
    assert fs[..|fs|] == fs;
  }

  /** One iteration of `SetClauses`: a given field adds one fragment and one value. */
  lemma SetClausesStep(cols: seq<string>, fs: seq<Field>, idx: seq<nat>, i: nat)
    requires |cols| == |fs| && i < |fs|
    requires idx == GivenColumns(fs[..i]) && InRange(fs, idx)
    ensures var next := if fs[i].Given? then idx + [i] else idx;
      && GivenColumns(fs[..i + 1]) == next
      && InRange(fs, next)
      && Clauses(cols, next) == Clauses(cols, idx) + (if fs[i].Given? then [cols[i] + " = " + Placeholder(|idx| + 1)] else [])
      && BoundValues(fs, next) == BoundValues(fs, idx) + (if fs[i].Given? then [fs[i].value] else [])
  {
    GivenColumnsStep(fs, i);
    if fs[i].Given? {
      ClausesStep(cols, idx, i);
      BoundValuesStep(fs, idx, i);
    }
  }

  /** The fragment for each chosen column, numbered from 1. */
  ghost function Clauses(cols: seq<string>, idx: seq<nat>): seq<string>
    requires forall k :: 0 <= k < |idx| ==> idx[k] < |cols|
  {
    seq(|idx|, k requires 0 <= k < |idx| => cols[idx[k]] + " = " + Placeholder(k + 1))
  }

  /** The value bound to each chosen column. */
  ghost function BoundValues(fs: seq<Field>, idx: seq<nat>): seq<Param>
    requires InRange(fs, idx)
  {
    seq(|idx|, k requires 0 <= k < |idx| => fs[idx[k]].value)
  }

  lemma ClausesStep(cols: seq<string>, idx: seq<nat>, i: nat)
    requires i < |cols|
    requires forall k :: 0 <= k < |idx| ==> idx[k] < |cols|
    ensures Clauses(cols, idx + [i]) == Clauses(cols, idx) + [cols[i] + " = " + Placeholder(|idx| + 1)]
  {
  }

  lemma BoundValuesStep(fs: seq<Field>, idx: seq<nat>, i: nat)
    requires i < |fs| && fs[i].Given?
    requires InRange(fs, idx)
    ensures BoundValues(fs, idx + [i]) == BoundValues(fs, idx) + [fs[i].value]
  {
  }

  lemma GivenColumnsStep(fs: seq<Field>, i: nat)
    requires i < |fs|
    ensures GivenColumns(fs[..i + 1]) == GivenColumns(fs[..i]) + (if fs[i].Given? then [i] else [])
  {
    assert fs[..i + 1][..i] == fs[..i];
  }

  /** What `updateUser` sends to the database. */
  datatype UpdatePlan =
    | SelectCurrent(id: string)                  // no field given: `SELECT * FROM users WHERE id = ...`
    | RunUpdate(query: string, params: seq<Param>)

  /**
   * `updateUser`: with no field given, reads the current row; otherwise one
   * `UPDATE` whose `SET` list has the given columns, with the id bound last.
   */
  method UpdateUser(id: string, d: UserData) returns (plan: UpdatePlan)
    ensures plan.SelectCurrent? <==> |GivenColumns(FieldsOf(d))| == 0
    ensures plan.SelectCurrent? ==> plan.id == id
    ensures plan.RunUpdate? ==> var idx := GivenColumns(FieldsOf(d)); var n := |idx|;
      && |plan.params| == n + 1
      && plan.params[n] == Str(id)
      && plan.query == "UPDATE users SET " + Join(Clauses(Columns, idx), ", ") + " WHERE id = " + Placeholder(n + 1) + " RETURNING *"
      && (forall k :: 0 <= k < n ==> plan.params[k] == FieldsOf(d)[idx[k]].value)
      && Text.EndsWith(plan.query, " WHERE id = " + Placeholder(n + 1) + " RETURNING *")
  {
    var updates, values := BuildUpdate(d);
    if |updates| == 0 {
      return SelectCurrent(id);
    }
    var suffix := " WHERE id = " + Placeholder(|values| + 1) + " RETURNING *";
    var query := "UPDATE users SET " + Join(updates, ", ") + suffix;
    plan := RunUpdate(query, values + [Str(id)]);
  }
}

=== FILE: wrappers.dfy ===
/** Optional values: a JavaScript `undefined`/`null` becomes `None`. */
module Wrappers {

  datatype Option<+T> = None | Some(value: T)
}
